=== FILE: README.md ===
# LittleBugShop storefront: session and form logic in Dafny

This project models the client-side logic of the LittleBugShop React
storefront. It has two parts.

- **Session state machine** (`api.dfy`, `auth_service.dfy`). The browser's
  `localStorage` and `window.location` are the fields of `Browser.Window`.
  - `authService.login` writes the `token` and `user` keys together, and
    only when the response carries a truthy token.
  - `logout` removes both keys, whatever the outcome of the call.
  - `isAuthenticated` and `getCurrentUser` read the keys. The cached user
    passes through `JSON.stringify`/`JSON.parse`, modelled by a concrete
    JSON codec (`json.dfy`) with a proved round trip.
  - The axios request interceptor attaches `Bearer <token>`.
  - The response interceptor handles a 401. Unless the URL starts
    (case-sensitively) with `/Products`, `/Reviews` or `/Wishlist`, it
    clears both keys and sends the page to `/login`. Every failure is
    re-rejected.
  - The session has two states: anonymous (no truthy token) and
    authenticated.
- **Pages and helpers.** Each page is a class whose fields are its React
  state; each handler is a method. A backend call is an `Outcome` parameter
  (resolved value or thrown value). A `confirm` dialog is a boolean
  parameter. A `navigate` call is recorded in a `navigatedTo` field. The
  pure parts of the pages are functions:
  - the stock classification of the product card and detail page;
  - the quantity choices;
  - unique-genre extraction;
  - the cart's "quantity 0 removes" rule;
  - card-number and CVV sanitising;
  - the add-payment request built for each payment type;
  - the validation chains of the registration, login and password forms;
  - the profile form's empty-to-null mapping;
  - the payment-type and order-status tables;
  - the new-order highlight.

Some JavaScript semantics are written out:
- `length` counts UTF-16 code units (`Text.Utf16Length`);
- `trim` removes ECMAScript white space;
- `String(n)` is `Text.IntToString`;
- `padStart(2, '0')` is `Text.PadTwo`;
- `err instanceof Error ? err.message : fallback` is `Common.MessageOr`.

Four behaviours of the code worth knowing:
- **Negative stock.** The quantity select of the product page builds
  `Array(Math.min(10, stockQuantity))`. For a negative stock this throws a
  RangeError instead of giving an empty list. `QuantityOptions` returns
  None for that case.
- **Review endpoints.** The allow-list entry `/Reviews` matches none of the
  review endpoints, which all start with lower-case `/products/`. A 401 on
  a review call therefore ends the session
  (`ProductDetailPage.ReviewFailureEndsSession`). The same holds for
  `/users/profile`, the cart endpoints and order cancellation.
- **Cached user after a profile update.** A profile update does not
  rewrite the cached `user` entry. The profile form is refilled from that
  entry, so after a reload it shows the values from before the update.
  `ProfilePage.ProfileView.UpdateProfile` leaves the store alone.
- **Wrong password.** A 401 from `/Users/login` is not on the allow-list.
  The interceptor clears the session and assigns `/login` to
  `window.location.href`, which reloads the login page; the error the form
  sets is axios's own message and is lost with that reload
  (`LoginPage.WrongPasswordEndsSession`).

## Model

| member | source | states |
|---|---|---|
| Common.MessageOr | src/pages/RegisterPage.tsx:56 | An `Error` shows its own message; any other thrown value shows the fallback text. |
| Common.EmptyToNull | src/pages/RegisterPage.tsx:50-52 | An empty form field is sent as null; any other text is sent unchanged. |
| Common.NullToEmpty | src/pages/ProfilePage.tsx:43-46 | A nullable value fills a form field: a truthy value unchanged, null and '' both as ''. |
| Common.EmptyToNullAfterNullToEmpty | src/pages/ProfilePage.tsx:43-46 | Filling a form field from a value and mapping it back forgets only the difference between null and ''. |
| Text.KeepDigits | src/pages/PaymentMethodsPage.tsx:239 | `replace(/\D/g, '')` leaves only digits and never lengthens the text. |
| Text.KeepDigitsAppend | src/pages/PaymentMethodsPage.tsx:239 | Removing non-digits distributes over concatenation. |
| Text.Take | src/pages/PaymentMethodsPage.tsx:239 | `slice(0, n)` is a prefix of length min(n, length). |
| Text.Trim | src/pages/CartPage.tsx:76 | `trim()` keeps an infix of the text: everything cut off at either end is ECMAScript white space, and the kept part neither starts nor ends with white space. |
| Text.TrimEmptyIffAllSpace | src/pages/ProductDetailPage.tsx:98 | `!s.trim()` holds exactly when every character of `s` is white space. |
| Text.IntToString | src/pages/OrdersPage.tsx:115 | `String(n)` is non-empty and starts with '-' exactly for negative `n`. |
| Text.IntToStringRoundTrip | src/pages/OrdersPage.tsx:115 | Reading `String(n)` back as a decimal integer gives `n`. |
| Text.IntToStringInjective | src/pages/OrdersPage.tsx:115 | Different integers have different decimal strings. |
| Text.PadTwo | src/pages/PaymentMethodsPage.tsx:263 | `String(n).padStart(2, '0')` gives digits only, exactly two of them with value `n` when `n < 100`. |
| Text.Utf16Length | src/pages/RegisterPage.tsx:38 | `length` counts code units: at least one and at most two per character. |
| Text.Utf16LengthOfBmp | src/pages/RegisterPage.tsx:38 | Without characters outside the Basic Multilingual Plane, `length` is the number of characters. |
| Text.Utf16LengthOfChar | src/pages/RegisterPage.tsx:38 | A single character is two code units exactly when it lies outside the Basic Multilingual Plane, and one otherwise. |
| Text.Utf16LengthAppend | src/pages/ProfilePage.tsx:98 | The `length` of a concatenation is the sum of the parts' lengths, so with the one-character case it fixes the count of every string. |
| Json.UserRoundTrip | src/services/authService.ts:25 | The text `JSON.stringify` writes for a user parses back to the same user. |
| Api.StoredToken | src/services/api.ts:14-15 | A token is used exactly when the `token` key holds a non-empty string, and it is that string. |
| Api.ClearSession | src/services/api.ts:40-41 | Both session keys are removed and every other key keeps its value. |
| Api.WithAuthorization | src/services/api.ts:14-17 | With a stored token the headers get `Authorization: Bearer <token>`; otherwise they are unchanged; no other header changes. |
| Api.InterceptRequest | src/services/api.ts:13-18 | The interceptor updates the config's headers in place to exactly those headers and returns the same config. |
| Api.SomeStartsWith | src/services/api.ts:34-36 | `some(endpoint => url.startsWith(endpoint))` holds exactly when some listed prefix starts the URL. |
| Api.RequestUrl | src/services/api.ts:33 | The URL of the failed request, or '' when the error carries none. |
| Api.InterceptResponse | src/services/api.ts:26-47 | The outcome is passed on unchanged. A failure that `ForcesLogin` (`IsUnauthorized`, a 401 response, on a URL outside the allow-list) clears both keys and sets the location to `/login`. Anything else leaves the store and the location alone. |
| Api.ShouldSkipRedirectIff | src/services/api.ts:32-36 | `ShouldSkipRedirect`, the allow-list test, is exactly a case-sensitive prefix test against `/Products`, `/Reviews` and `/Wishlist`. |
| Api.ExemptUrlShape | src/services/api.ts:32-36 | Every exempt URL starts with '/' followed by 'P', 'R' or 'W'. |
| Api.ReviewEndpointsNotExempt | src/services/reviewService.ts:23 | No URL under `/products/{id}/Reviews` is exempt, whatever follows. |
| Api.ProtectedUrls | src/services/api.ts:33-36 | A missing URL (''), `/users/profile…`, `/Cart…` and `/Users/…` are not exempt. |
| Api.ExemptUrls | src/services/api.ts:32-36 | Any URL that starts with one of the three prefixes is exempt. |
| Api.OnlyUnauthorizedForcesLogin | src/services/api.ts:29 | Non-401 errors and errors without a response never satisfy `ForcesLogin`, so they never end the session. |
| Api.ClearSessionConsistent | src/services/api.ts:40-41 | After the clear, token and user are both absent and nobody is authenticated. |
| AuthService.CurrentUser | src/services/authService.ts:41-44 | A missing or empty `user` entry, and the text `null`, give null. A user comes back exactly as the stored text decodes, and the call throws the parse error exactly when the text is neither empty, `null` nor a user record. |
| AuthService.WriteSession | src/services/authService.ts:24-25 | The two `setItem` calls leave the token and the user text under their keys and change no other key. |
| AuthService.AfterLogin | src/services/authService.ts:23-26 | With a truthy token, both keys hold the token and the serialised user. Without one, the store is unchanged. No other key changes. |
| AuthService.Login | src/services/authService.ts:21-28 | The store becomes `AfterLogin` of the response, a failure leaves it alone, and the outcome is handed back unchanged. |
| AuthService.Logout | src/services/authService.ts:31-38 | Both keys are removed whether or not the call succeeded, and the call's outcome is propagated. |
| AuthService.Register | src/services/authService.ts:15-18 | Registration hands back its outcome and changes no session state. |
| AuthService.LoginRoundTrip | src/services/authService.ts:24-25 | After a login with a token the visitor is authenticated with that token, and `getCurrentUser` returns the response's user unchanged. |
| AuthService.ClearedSessionIsAnonymous | src/services/authService.ts:35-36 | After logout or a forced logout `IsAuthenticated` (`!!getItem('token')`) is false and the cached user is null. |
| AuthService.WritersKeepSessionConsistent | src/services/authService.ts:24-25 | Login and both clears keep `SessionConsistent` (token present iff user present) when it held before. |
| AuthService.LoginThenRequestCarriesToken | src/services/api.ts:14-17 | Once a login with a token has been stored, every request carries `Bearer` and that token. |
| PaymentMethodService.GetPaymentMethods | src/services/paymentMethodService.ts:40-43 | A response without `value` gives `[]`; otherwise the list is passed unchanged; failures propagate. |
| PaymentMethodService.TypeLabel | src/services/paymentMethodService.ts:72-83 | 'Unknown' exactly for values other than the three payment types. |
| PaymentMethodService.TypeLabelNamesType | src/services/paymentMethodService.ts:72-79 | The three known types have three different labels. |
| PaymentMethodService.TypeLabelTable | src/services/paymentMethodService.ts:72-79 | 0, 1 and 2 map to 'Credit Card', 'Debit Card' and 'PayPal'. |
| PaymentMethodService.TypeIconClasses | src/services/paymentMethodService.ts:86-97 | `TypeIcon`: credit and debit cards share an icon; PayPal has another; every other value gets a third. |
| ProductCard.StockLabel | src/components/ProductCard.tsx:89 | 'Out of Stock' exactly at zero stock. 'Low Stock' exactly for 0 < stock <= threshold. 'In Stock' otherwise, negative stock included. |
| ProductCard.AuthorLine | src/components/ProductCard.tsx:38 | A missing or empty author is shown as 'Unknown Author'. |
| ProductCard.StockFlagsExclusive | src/components/ProductCard.tsx:9-10 | `IsOutOfStock` (stock 0) and `IsLowStock` (0 < stock <= threshold) never hold together, and negative stock raises neither. |
| ProductsPage.SearchParams | src/pages/ProductsPage.tsx:28-33 | Empty search term and genre are not sent; sort field and order always are. |
| ProductsPage.Genres | src/pages/ProductsPage.tsx:37 | `map(p => p.genre).filter(Boolean)` holds exactly the non-empty genres of the products. |
| ProductsPage.GenresOfOne | src/pages/ProductsPage.tsx:37 | One product contributes its genre when that is truthy, and nothing otherwise. |
| ProductsPage.GenresAppend | src/pages/ProductsPage.tsx:37 | `map` and `filter` keep the products' order: the genres of `a + b` are those of `a` followed by those of `b`. |
| ProductsPage.Distinct | src/pages/ProductsPage.tsx:37 | Spreading a `Set` keeps each value once and loses none. |
| ProductsPage.FirstIndex | src/pages/ProductsPage.tsx:37 | The position of the first occurrence: the value is there and nowhere before it. |
| ProductsPage.DistinctKeepsFirstOccurrenceOrder | src/pages/ProductsPage.tsx:37 | The `Set` keeps its values in the order of their first occurrence. |
| ProductsPage.UniqueGenresSpec | src/pages/ProductsPage.tsx:37 | `UniqueGenres`, the genre filter, lists every non-empty genre exactly once and nothing else, in order of first appearance. |
| ProductsPage.ResultsCount | src/pages/ProductsPage.tsx:162 | The results line reads `Showing N product` or `Showing N products`. |
| ProductsPage.ResultsCountPlural | src/pages/ProductsPage.tsx:162 | The plural 's' is written exactly when the count is not 1. |
| ProductsPage.ProductsView.LoadProducts | src/pages/ProductsPage.tsx:24-45 | Sends the current filters. Success replaces products and genres; failure keeps them and shows 'Failed to load products'. |
| ProductsPage.ProductsView.ClearFilters | src/pages/ProductsPage.tsx:52-57 | The filters return to ('', '', 'name', 'asc') and nothing else changes. |
| ProductsPage.ClearFiltersThenEffect | src/pages/ProductsPage.tsx:20-57 | After `clearFilters` the filters read ('', '', 'name', 'asc'). The load effect re-runs exactly when some filter was set before: it then asks for the whole catalogue by name, ascending, and shows the products and genres that come back or the error. When nothing was set, no request is sent and products, genres, loading and error stay. |
| ProductDetailPage.StockMessageAgreesWithCard | src/pages/ProductDetailPage.tsx:236-241 | `StockMessage` picks the out-of-stock, low-stock and in-stock messages exactly as the card picks its labels, and the last two end with the count. |
| ProductDetailPage.OneTo | src/pages/ProductDetailPage.tsx:266-268 | The options `i + 1` for i below n: the numbers 1 to n in order. |
| ProductDetailPage.QuantityOptions | src/pages/ProductDetailPage.tsx:266 | Negative stock gives the RangeError (None); otherwise there are min(10, stock) options. |
| ProductDetailPage.QuantityOptionsRange | src/pages/ProductDetailPage.tsx:266-268 | Option i is i + 1, within 1..min(10, stock). There are none exactly at zero stock, and 1 is offered whenever stock is positive. |
| ProductDetailPage.WishlistFailuresKeepSession | src/services/wishlistService.ts:12-22 | A 401 from adding, removing or checking a wishlist item never ends the session. |
| ProductDetailPage.ReviewFailureEndsSession | src/services/reviewService.ts:23 | A 401 from the review endpoint is not exempt. |
| ProductDetailPage.ProductDetailView.LoadProduct | src/pages/ProductDetailPage.tsx:35-62 | A product failure keeps product and reviews and shows 'Failed to load product details'. A review failure gives []. Wishlist membership is queried only with a stored token, and a failed query changes nothing. Only product, reviews, loading, error and inWishlist may change. |
| ProductDetailPage.ProductDetailView.AddToCart | src/pages/ProductDetailPage.tsx:64-78 | Without a product nothing is sent. Otherwise the product id and the chosen quantity are sent, and the notice shows after success. Only the two cart flags may change. |
| ProductDetailPage.ProductDetailView.AddedNoticeExpired | src/pages/ProductDetailPage.tsx:71 | The timer hides the added-to-cart notice and changes nothing else. |
| ProductDetailPage.ProductDetailView.ToggleWishlist | src/pages/ProductDetailPage.tsx:80-94 | Removes when listed, adds otherwise; the flag flips only after the server agreed, and nothing else changes. |
| ProductDetailPage.ProductDetailView.OpenReviewForm | src/pages/ProductDetailPage.tsx:312-319 | The form opens only for a signed-in visitor; nothing else changes. |
| ProductDetailPage.ProductDetailView.SelectRating | src/pages/ProductDetailPage.tsx:350-356 | A star sets the rating to its number and changes nothing else. |
| ProductDetailPage.ProductDetailView.CancelReview | src/pages/ProductDetailPage.tsx:401-405 | Cancel hides and empties the form, restores five stars and clears the review error; nothing else changes. |
| ProductDetailPage.ProductDetailView.ReviewCreated | src/pages/ProductDetailPage.tsx:108-112 | After a created review the form is reset and the product reloaded, with the reloaded product, reviews, error, loading and wishlist flag exactly as `loadProduct` leaves them. |
| ProductDetailPage.ProductDetailView.ReviewRejected | src/pages/ProductDetailPage.tsx:113-119 | A refused review shows the thrown message, or the fallback, and ends the submission; nothing else changes. |
| ProductDetailPage.ProductDetailView.SubmitReview | src/pages/ProductDetailPage.tsx:96-120 | Nothing is sent without a product or when `reviewText.trim()` is empty, and then nothing changes. Otherwise the trimmed text and the rating are posted to `/products/{id}/Reviews` of the shown product. Success resets the form and leaves the reloaded state as `loadProduct` does; failure keeps the form and the product and shows the message. |
| CartPage.QuantityCall | src/pages/CartPage.tsx:36-40 | A new quantity of 0 removes the line; any other quantity updates it to that quantity. |
| CartPage.QuantityButtons | src/pages/CartPage.tsx:180-194 | Minus removes exactly at quantity 1, plus updates, and a 401 on the item endpoint ends the session. |
| CartPage.EmptyIffNoRows | src/pages/CartPage.tsx:108-139 | `isEmpty` (the empty-cart panel) holds exactly when `cart?.items?.map` renders no row; otherwise every line of the cart gets its row, in order. |
| CartPage.CartView.LoadCart | src/pages/CartPage.tsx:19-31 | Success shows the cart; failure keeps it and shows 'Failed to load cart'. Only cart, loading and error may change. |
| CartPage.CartView.UpdateQuantity | src/pages/CartPage.tsx:33-47 | Calls remove or update by the quantity rule and reloads only after success; a failed reload shows 'Failed to load cart'; a failed call changes only the busy id, which is cleared at the end. |
| CartPage.CartView.RemoveItemLine | src/pages/CartPage.tsx:49-59 | Removes the line and reloads only after success; a failed reload shows 'Failed to load cart'; a failed call changes only the busy id, which is cleared at the end. |
| CartPage.CartView.ClearCart | src/pages/CartPage.tsx:61-73 | No call and no change unless confirmed. After a confirmed clear loading is off; a failed clear keeps the cart and the error; a successful one reloads, and a failed reload shows 'Failed to load cart'. |
| CartPage.CartView.ApplyCoupon | src/pages/CartPage.tsx:75-89 | No call and no change for a blank code (`CouponBlank`). Otherwise the untrimmed code is sent; after success the cart reloads (a failed reload shows 'Failed to load cart') and the input is emptied; a failure changes nothing but the busy flag. |
| CartPage.CartView.RemoveCoupon | src/pages/CartPage.tsx:91-98 | Reloads the cart only after the coupon was removed, and a failed reload shows 'Failed to load cart'; a failed removal changes nothing. |
| PaymentMethodsPage.SanitizeCardNumber | src/pages/PaymentMethodsPage.tsx:239 | Digits only, at most 16, a prefix of the typed digits, all of them when there are at most 16. |
| PaymentMethodsPage.SanitizeCvv | src/pages/PaymentMethodsPage.tsx:299 | Digits only, at most 4, a prefix of the typed digits, all of them when there are at most 4. |
| PaymentMethodsPage.TakeOfDigitsIsFixed | src/pages/PaymentMethodsPage.tsx:239 | Short enough digit text passes through the sanitiser unchanged. |
| PaymentMethodsPage.SanitizersIdempotent | src/pages/PaymentMethodsPage.tsx:239 | Sanitising an already sanitised value changes nothing. |
| PaymentMethodsPage.SeparatorsIgnored | src/pages/PaymentMethodsPage.tsx:299 | Keystroke by keystroke, separators typed between digits do not change the number `onChange` keeps. |
| PaymentMethodsPage.ExpiryMonthOptions | src/pages/PaymentMethodsPage.tsx:262-266 | Twelve options, each two digits, option i worth i + 1. |
| PaymentMethodsPage.ExpiryMonthsDistinct | src/pages/PaymentMethodsPage.tsx:262-266 | The months run '01' to '12' and are all different. |
| PaymentMethodsPage.ExpiryYearOptions | src/pages/PaymentMethodsPage.tsx:283-284 | Ten year options. |
| PaymentMethodsPage.ExpiryYearOptionsRead | src/pages/PaymentMethodsPage.tsx:283-284 | The year options read back as ten consecutive years, the current one first. |
| PaymentMethodsPage.EditKeepsWellFormed | src/pages/PaymentMethodsPage.tsx:223-319 | `Edited`, any input of the form, keeps the card number to at most 16 digits and the CVV to at most 4, whatever is typed. |
| PaymentMethodsPage.BuildRequest | src/pages/PaymentMethodsPage.tsx:86-98 | PayPal carries only its email. Any other type carries holder, number, month, year and CVV, and no email. |
| PaymentMethodsPage.PaymentMethodsView.LoadPaymentMethods | src/pages/PaymentMethodsPage.tsx:37-49 | Success shows the list; failure keeps it and shows 'Failed to load payment methods'. Only the list, loading and error may change. |
| PaymentMethodsPage.PaymentMethodsView.Mount | src/pages/PaymentMethodsPage.tsx:29-35 | An anonymous visitor is sent to `/login` and nothing else changes; otherwise the list loads, a failure showing 'Failed to load payment methods'. |
| PaymentMethodsPage.PaymentMethodsView.Delete | src/pages/PaymentMethodsPage.tsx:51-64 | No call and no change unless confirmed; reloads only after success, a failed reload showing the load error; the form is never touched. |
| PaymentMethodsPage.PaymentMethodsView.SetDefault | src/pages/PaymentMethodsPage.tsx:66-77 | Reloads only after success, a failed reload showing the load error, and clears the in-progress id; the form is never touched. |
| PaymentMethodsPage.PaymentMethodsView.ChooseType | src/pages/PaymentMethodsPage.tsx:198 | A type button selects that type and changes nothing else. |
| PaymentMethodsPage.PaymentMethodsView.Edit | src/pages/PaymentMethodsPage.tsx:223-319 | Each input stores its value, the card fields sanitised, keeps the form well formed and changes nothing else. |
| PaymentMethodsPage.PaymentMethodsView.OpenAddForm | src/pages/PaymentMethodsPage.tsx:154 | Shows the add form and changes nothing else. |
| PaymentMethodsPage.PaymentMethodsView.AddPaymentMethod | src/pages/PaymentMethodsPage.tsx:79-119 | Sends the request for the chosen type, all seven fields as `BuildRequest` states. Success empties all six fields, hides the form and reloads (a failed reload shows the load error); failure keeps the form, the list and the error and shows the form error. |
| PaymentMethodsPage.PaymentMethodsView.ResetForm | src/pages/PaymentMethodsPage.tsx:121-132 | Hides and empties the form and clears its error; nothing else changes. |
| RegisterPage.ValidationError | src/pages/RegisterPage.tsx:28-41 | Missing fields are reported first, then the mismatch, then a password under 6 code units. No error exactly when all three checks pass. |
| RegisterPage.RequestOf | src/pages/RegisterPage.tsx:46-53 | Username, email and password are sent verbatim; empty optional fields are sent as null. |
| RegisterPage.ValidRequestFields | src/pages/RegisterPage.tsx:46-53 | A validated request has non-empty credentials and a password of at least 6 units, and every optional field reads back. |
| RegisterPage.RegisterView.HandleChange | src/pages/RegisterPage.tsx:19-22 | Stores the field and clears the error. |
| RegisterPage.RegisterView.HandleSubmit | src/pages/RegisterPage.tsx:24-62 | An invalid form shows its error and makes no call. Otherwise it sends the request: success navigates to `/login`, failure shows the message or the fallback. |
| LoginPage.ValidationError | src/pages/LoginPage.tsx:22-25 | 'Please enter both username and password' exactly when either field is empty. |
| LoginPage.LoginView.HandleChange | src/pages/LoginPage.tsx:14-17 | Stores the field and clears the error. |
| LoginPage.LoginView.HandleSubmit | src/pages/LoginPage.tsx:19-43 | An empty field makes no call. Otherwise it sends the credentials as entered: success stores the session and navigates to `/`, failure shows the message or the fallback. |
| LoginPage.SignInAuthenticates | src/pages/LoginPage.tsx:30-34 | A sign-in whose response has a token leaves the visitor authenticated as that user. |
| LoginPage.WrongPasswordEndsSession | src/services/api.ts:26-47 | A 401 from `/Users/login` is not exempt: the interceptor clears any stored session and assigns `/login` to the location; the form's error state is set to the thrown error's message, and `navigate` is not called. |
| ProfilePage.FormFromUser | src/pages/ProfilePage.tsx:42-47 | Each form field is the user's value, with null as ''. |
| ProfilePage.UpdateRequestOf | src/pages/ProfilePage.tsx:75-80 | Each empty field is sent as null, the others unchanged. |
| ProfilePage.UntouchedFormRoundTrip | src/pages/ProfilePage.tsx:75-80 | Saving an untouched form sends back the cached values with '' as null, and no typed value is lost. |
| ProfilePage.PasswordError | src/pages/ProfilePage.tsx:93-101 | A mismatch is reported before length; no error exactly when the two match and are at least 6 code units. |
| ProfilePage.OldPasswordNotChecked | src/pages/ProfilePage.tsx:93-101 | The current password plays no part in the client-side checks. |
| ProfilePage.ProfileView.ShowCachedUser | src/pages/ProfilePage.tsx:38-54 | A cached user fills the form. No user changes nothing. Unparsable text shows 'Failed to load profile'. Only user, form, loading and error may change. |
| ProfilePage.ProfileView.LoadProfile | src/pages/ProfilePage.tsx:36-55 | Reads the cached user from the store and shows it as above. |
| ProfilePage.ProfileView.Mount | src/pages/ProfilePage.tsx:28-34 | An anonymous visitor is sent to `/login` and nothing else changes; otherwise the cached user is read and shown exactly as `LoadProfile` shows it. |
| ProfilePage.ProfileView.HandleChange | src/pages/ProfilePage.tsx:57-61 | Stores the field and clears both messages; nothing else changes. |
| ProfilePage.ProfileView.HandlePasswordChange | src/pages/ProfilePage.tsx:63-67 | Stores the field and clears both messages; nothing else changes. |
| ProfilePage.ProfileView.UpdateProfile | src/pages/ProfilePage.tsx:69-88 | Sends the empty-to-null request; success shows the success message, failure the error; only saving and the two messages may change. |
| ProfilePage.ProfileView.ChangePassword | src/pages/ProfilePage.tsx:90-118 | A failed check shows its message and makes no call. Otherwise both passwords are sent verbatim, and after success the three fields are emptied; only saving, the messages and the password fields may change. |
| ProfilePage.ProfileAfterSignIn | src/pages/ProfilePage.tsx:39-47 | Right after a sign-in with a token, the profile shows the signed-in user's fields. |
| OrdersPage.StatusLabel | src/pages/OrdersPage.tsx:7-13 | A label exists exactly for the five statuses 0..4. |
| OrdersPage.StatusColor | src/pages/OrdersPage.tsx:15-21 | A colour exists exactly for the five statuses 0..4. |
| OrdersPage.StatusTables | src/pages/OrdersPage.tsx:7-21 | 0..4 read Pending, Processing, Shipped, Delivered, Cancelled, with badge classes yellow, blue, purple, green and red (`bg-…-100 text-…-800`): five different labels and five different colours. |
| OrdersPage.CancelOfferedWhilePending | src/pages/OrdersPage.tsx:180 | `CanCancel` (the Cancel button) holds exactly on orders whose badge reads Pending. |
| OrdersPage.CancelUrlProtected | src/services/orderService.ts:43-44 | A 401 on order cancellation ends the session. |
| OrdersPage.HighlightSelectsOneId | src/pages/OrdersPage.tsx:115 | `IsHighlighted` never holds for two orders with different ids. An order's own `String(id)` highlights it, and a highlight always comes with `ShowsSuccessBanner`. |
| OrdersPage.LeadingZeroHighlightsNothing | src/pages/OrdersPage.tsx:115 | A zero-padded value such as `007` highlights no order. |
| OrdersPage.OrdersView.LoadOrders | src/pages/OrdersPage.tsx:40-52 | Success shows the orders; failure keeps them and shows 'Failed to load orders'. Only orders, loading and error may change. |
| OrdersPage.OrdersView.Mount | src/pages/OrdersPage.tsx:32-38 | An anonymous visitor is sent to `/login` and nothing else changes; otherwise the orders load, a failure showing 'Failed to load orders'. |
| OrdersPage.OrdersView.CancelOrder | src/pages/OrdersPage.tsx:54-64 | No call and no change unless confirmed; the cancel endpoint is called; the list reloads only after success, and a failed reload shows 'Failed to load orders'. |

## Left out

- HTTP transport, the axios instance, `baseURL` and the async plumbing. Each backend call is a resolved or rejected `Outcome` given as a parameter. The outcomes a page sees are taken as already passed through `Api.InterceptResponse`.
- Concurrency: overlapping handlers and `Promise.all` on the product page. The two reads are modelled as two independent outcomes.
- `JSON.parse` accepts only the text shape `JSON.stringify` writes for a user (keys in declaration order, no extra white space), plus `null`. Other valid JSON in the `user` entry is read as a parse failure, although the browser would parse it.
- Characters outside the Basic Multilingual Plane are Dafny characters. `Text.Utf16Length` counts them as two code units, but lone surrogates cannot be written.
- JavaScript numbers (ids, quantities, stock, statuses, ratings) are unbounded integers: fractional values, `NaN`, `-0`, loss of precision above 2^53 and the exponent notation `String(n)` uses from 1e21 on are not modelled.
- Assigning `window.location.href` (the interceptor's redirect to `/login`) starts a page load that the model records only in `Window.location`; the page views' state is not reset by it.
- The inputs' `maxLength` attributes (16 for the card number, 4 for the CVV), which the browser applies before `onChange`: a pasted "1234 5678 9012 3456" keeps only 13 digits, whereas the sanitisers alone would keep 16.
- `confirm` and `alert` dialogs are boolean inputs or omitted. `console.error` is omitted. `window.location.reload` after login is omitted. The `setTimeout` that hides the added-to-cart notice is the separate event `AddedNoticeExpired`.
- Floating-point display (`toFixed`, `Math.round` of ratings), dates (`toLocaleDateString`), and the current year, which `ExpiryYearOptions` takes as a parameter.
- JSX rendering and CSS classes, apart from the status colour table and the cart's choice between the empty panel and the item rows (the discount line, for one, is not modelled).
- Markup-only components, `Header`, `WishlistPage`, `CheckoutPage`, `HomePage` and `NotFoundPage`.
- `parseInt` of the route id and of the quantity select's value.
- Typing into the review textarea and the coupon input, which only store the value.
- Backend rules (totals, discounts, coupon validity, stock, order creation) and the service methods no modelled page calls.
- ProductDetailPage.ProductDetailView.SubmitReview: the reload after a created review uses outcomes given as parameters. The review list's `reviews || []` unwrapping in `reviewService` is not modelled.
- ProfilePage.ProfileView.UpdateProfile: the cached `user` entry is not refreshed after an update, as in the source, so the model does not promise that the page shows the new values.

=== FILE: api.dfy ===
/**
 * The HTTP client every service goes through (src/services/api.ts): a
 * request interceptor that attaches the stored token as a bearer
 * credential, and a response interceptor that, on a 401 from any endpoint
 * outside a fixed allow-list, ends the session and sends the page to
 * `/login`. Every failure is passed on to the caller.
 */
module Api {

  import opened Common
  import opened Text
  import opened Browser

  const TokenKey: string := "token"
  const UserKey: string := "user"
  const LoginRoute: string := "/login"

  /** URL prefixes whose 401 must not end the session. */
  const SkipRedirectEndpoints: seq<string> := ["/Products", "/Reviews", "/Wishlist"]

  // ---------------------------------------------------------------------
  // The session store.

  /** `localStorage.getItem('token')` when it is truthy. */
  function StoredToken(store: map<string, string>): (t: Option<string>)
    ensures t.Some? <==> TokenKey in store && store[TokenKey] != ""
    ensures t.Some? ==> t.value == store[TokenKey]
  {
    if TokenKey in store && store[TokenKey] != "" then Some(store[TokenKey]) else None
  }

  /** `removeItem('token')` followed by `removeItem('user')`. */
  function ClearSession(store: map<string, string>): (s: map<string, string>)
    ensures TokenKey !in s && UserKey !in s
    ensures forall k :: k in store && k != TokenKey && k != UserKey ==> k in s && s[k] == store[k]
    ensures forall k :: k in s ==> k in store
  {
    store - {TokenKey, UserKey}
  }

  /** Token and cached user are stored together or not at all. */
  predicate SessionConsistent(store: map<string, string>) {
    TokenKey in store <==> UserKey in store
  }

  // ---------------------------------------------------------------------
  // Request interceptor.

  /** The request configuration the interceptor receives and returns. */
  class RequestConfig {
    var url: Option<string>
    var headers: map<string, string>

    constructor (url: Option<string>, headers: map<string, string>)
      ensures this.url == url && this.headers == headers
    {
      this.url := url;
      this.headers := headers;
    }
  }

  /** The headers after the interceptor ran, given what the store holds. */
  function WithAuthorization(headers: map<string, string>, store: map<string, string>): (h: map<string, string>)
    ensures StoredToken(store).Some? ==>
      "Authorization" in h && h["Authorization"] == "Bearer " + store[TokenKey]
    ensures StoredToken(store).None? ==> h == headers
    ensures forall k :: k != "Authorization" ==> (k in h <==> k in headers)
    ensures forall k :: k in headers && k != "Authorization" ==> h[k] == headers[k]
  {
    match StoredToken(store)
    case Some(token) => headers["Authorization" := "Bearer " + token]
    case None => headers
  }

  /** The request interceptor: sets `Authorization` in place when a token is stored. */
  method InterceptRequest(w: Window, config: RequestConfig) returns (out: RequestConfig)
    modifies config
    ensures out == config
    ensures config.url == old(config.url)
    ensures config.headers == WithAuthorization(old(config.headers), w.localStorage)
  {
    var token := StoredToken(w.localStorage);
    if token.Some? {
      config.headers := config.headers["Authorization" := "Bearer " + token.value];
    }
    out := config;
  }

  // ---------------------------------------------------------------------
  // Response interceptor.

  /** `skipRedirectEndpoints.some(endpoint => url.startsWith(endpoint))`, over any list. */
  function SomeStartsWith(url: string, endpoints: seq<string>): (r: bool)
    ensures r <==> exists i :: 0 <= i < |endpoints| && StartsWith(url, endpoints[i])
  {
    if endpoints == [] then false
    else StartsWith(url, endpoints[0]) || SomeStartsWith(url, endpoints[1..])
  }

  predicate ShouldSkipRedirect(url: string) {
    SomeStartsWith(url, SkipRedirectEndpoints)
  }

  /** `error.config?.url || ''` */
  function RequestUrl(error: Thrown): (u: string)
    ensures error.AxiosError? && error.url.Some? ==> u == error.url.value
    ensures !(error.AxiosError? && error.url.Some?) ==> u == ""
  {
    if error.AxiosError? && error.url.Some? then error.url.value else ""
  }

  /** `error.response?.status === 401` */
  predicate IsUnauthorized(error: Thrown) {
    error.AxiosError? && error.status == Some(401)
  }

  /** The failures after which the interceptor ends the session and redirects. */
  predicate ForcesLogin(error: Thrown) {
    IsUnauthorized(error) && !ShouldSkipRedirect(RequestUrl(error))
  }

  /**
   * The response interceptor. A success passes through; a failure is
   * re-rejected unchanged, after clearing the session and redirecting when
   * it is a 401 from an endpoint outside the allow-list.
   */
  method InterceptResponse<T>(w: Window, reply: Outcome<T>) returns (r: Outcome<T>)
    modifies w
    ensures r == reply
    ensures reply.Rejected? && ForcesLogin(reply.error) ==>
      w.localStorage == ClearSession(old(w.localStorage)) && w.location == LoginRoute
    ensures !(reply.Rejected? && ForcesLogin(reply.error)) ==>
      w.localStorage == old(w.localStorage) && w.location == old(w.location)
  {
    r := reply;
    if reply.Rejected? {
      var error := reply.error;
      if error.AxiosError? && error.status == Some(401) {
        var requestUrl := RequestUrl(error);
        var shouldSkipRedirect := SomeStartsWith(requestUrl, SkipRedirectEndpoints);
        if !shouldSkipRedirect {
          w.localStorage := w.localStorage - {TokenKey};
          w.localStorage := w.localStorage - {UserKey};
          w.location := LoginRoute;
        }
      }
    }
  }

  // ---------------------------------------------------------------------
  // Properties of the allow-list.

  /** The allow-list test, spelt out: one of three case-sensitive prefixes. */
  lemma ShouldSkipRedirectIff(url: string)
    ensures ShouldSkipRedirect(url) <==>
      StartsWith(url, "/Products") || StartsWith(url, "/Reviews") || StartsWith(url, "/Wishlist")
  {
    assert SkipRedirectEndpoints[0] == "/Products";
    assert SkipRedirectEndpoints[1] == "/Reviews";
    assert SkipRedirectEndpoints[2] == "/Wishlist";
  }

  /** Every exempt URL has an upper-case letter right after its leading slash. */
  lemma {:induction false} ExemptUrlShape(url: string)
    requires ShouldSkipRedirect(url)
    ensures |url| >= 2 && url[0] == '/' && (url[1] == 'P' || url[1] == 'R' || url[1] == 'W')
  {
    ShouldSkipRedirectIff(url);
    if StartsWith(url, "/Products") {
      assert url[..9] == "/Products";
      assert url[0] == url[..9][0] && url[1] == url[..9][1];
    } else if StartsWith(url, "/Reviews") {
      assert url[..8] == "/Reviews";
      assert url[0] == url[..8][0] && url[1] == url[..8][1];
    } else {
      assert url[..9] == "/Wishlist";
      assert url[0] == url[..9][0] && url[1] == url[..9][1];
    }
  }

  /**
   * The review endpoints live under lower-case `/products/`, so a 401 on
   * them is not exempt: the prefix test is case-sensitive.
   */
  lemma ReviewEndpointsNotExempt(productId: int, suffix: string)
    ensures !ShouldSkipRedirect("/products/" + IntToString(productId) + "/Reviews" + suffix)
  {
    var url := "/products/" + IntToString(productId) + "/Reviews" + suffix;
    assert url[1] == 'p';
    if ShouldSkipRedirect(url) {
      ExemptUrlShape(url);
    }
  }

  /** A missing or empty URL, and the profile endpoints, are protected. */
  lemma ProtectedUrls(suffix: string)
    ensures !ShouldSkipRedirect("")
    ensures !ShouldSkipRedirect("/users/profile" + suffix)
    ensures !ShouldSkipRedirect("/Cart" + suffix)
    ensures !ShouldSkipRedirect("/Users/" + suffix)
  {
    if ShouldSkipRedirect("/users/profile" + suffix) {
      ExemptUrlShape("/users/profile" + suffix);
    }
    if ShouldSkipRedirect("/Cart" + suffix) {
      ExemptUrlShape("/Cart" + suffix);
    }
    if ShouldSkipRedirect("/Users/" + suffix) {
      ExemptUrlShape("/Users/" + suffix);
    }
  }

  /** Catalogue, review and wishlist URLs with the exact prefix are exempt, whatever follows. */
  lemma ExemptUrls(suffix: string)
    ensures ShouldSkipRedirect("/Products" + suffix)
    ensures ShouldSkipRedirect("/Reviews" + suffix)
    ensures ShouldSkipRedirect("/Wishlist" + suffix)
  {
    ShouldSkipRedirectIff("/Products" + suffix);
    ShouldSkipRedirectIff("/Reviews" + suffix);
    ShouldSkipRedirectIff("/Wishlist" + suffix);
    assert ("/Products" + suffix)[..9] == "/Products";
    assert ("/Reviews" + suffix)[..8] == "/Reviews";
    assert ("/Wishlist" + suffix)[..9] == "/Wishlist";
  }

  /** Only a 401 with a response can end the session: other statuses and network failures never do. */
  lemma OnlyUnauthorizedForcesLogin(error: Thrown)
    requires !error.AxiosError? || error.status != Some(401)
    ensures !ForcesLogin(error)
  {
  }

  /** Clearing the session leaves it consistent and unauthenticated. */
  lemma ClearSessionConsistent(store: map<string, string>)
    ensures SessionConsistent(ClearSession(store))
    ensures StoredToken(ClearSession(store)).None?
  {
  }
}

=== FILE: auth_service.dfy ===
/**
 * The session half of `authService` (src/services/authService.ts): login
 * and logout write the two session keys, `isAuthenticated` and
 * `getCurrentUser` read them, and registration leaves them alone.
 *
 * Session states: Anonymous (no truthy token) and Authenticated (a truthy
 * token). Login with a token moves to Authenticated; logout, and a 401 on
 * a protected endpoint (`Api.InterceptResponse`), move to Anonymous.
 */
module AuthService {

  import opened Common
  import opened Types
  import opened Json
  import opened Browser
  import opened Api

  /** `!!localStorage.getItem('token')` */
  predicate IsAuthenticated(store: map<string, string>) {
    StoredToken(store).Some?
  }

  /** What `JSON.parse` throws on text that is not a user record. */
  const ParseFailure: Thrown := PlainError("SyntaxError: unexpected token in JSON")

  /**
   * `getCurrentUser()`: `userStr ? JSON.parse(userStr) : null`. A missing or
   * empty entry gives null, the text `null` parses to null, and anything
   * that does not parse throws.
   */
  function CurrentUser(store: map<string, string>): (r: Outcome<Option<UserInfo>>)
    ensures UserKey !in store || store[UserKey] == "" || store[UserKey] == "null" ==> r == Resolved(None)
    ensures r.Resolved? && r.value.Some? ==> UserKey in store && DecodeUser(store[UserKey]) == r.value
    ensures r.Rejected? <==>
      UserKey in store && store[UserKey] != "" && store[UserKey] != "null" && DecodeUser(store[UserKey]).None?
    ensures r.Rejected? ==> r.error == ParseFailure
  {
    if UserKey !in store || store[UserKey] == "" then Resolved(None)
    else if store[UserKey] == "null" then Resolved(None)
    else
      match DecodeUser(store[UserKey])
      case Some(u) => Resolved(Some(u))
      case None => Rejected(ParseFailure)
  }

  /** `setItem('token', token)` followed by `setItem('user', text)`. */
  function WriteSession(store: map<string, string>, token: string, text: string): (s: map<string, string>)
    ensures TokenKey in s && s[TokenKey] == token && UserKey in s && s[UserKey] == text
    ensures forall k :: k != TokenKey && k != UserKey ==> (k in s <==> k in store)
    ensures forall k :: k in s && k != TokenKey && k != UserKey ==> s[k] == store[k]
  {
    store[TokenKey := token][UserKey := text]
  }

  /** The store after a resolved login response has been handled. */
  function AfterLogin(store: map<string, string>, response: LoginResponse): (s: map<string, string>)
    ensures Truthy(response.token) ==>
      TokenKey in s && s[TokenKey] == response.token.value && UserKey in s && s[UserKey] == EncodeUser(response.user)
    ensures !Truthy(response.token) ==> s == store
    ensures forall k :: k != TokenKey && k != UserKey ==> (k in s <==> k in store)
    ensures forall k :: k in s && k != TokenKey && k != UserKey ==> s[k] == store[k]
  {
    if Truthy(response.token) then WriteSession(store, response.token.value, EncodeUser(response.user))
    else store
  }

  /**
   * `authService.login`: `reply` is the outcome of `POST /Users/login`. On a
   * response with a truthy token both keys are written; the response, or
   * the failure, is handed back unchanged.
   */
  method Login(w: Window, reply: Outcome<LoginResponse>) returns (r: Outcome<LoginResponse>)
    modifies w
    ensures r == reply
    ensures w.location == old(w.location)
    ensures reply.Resolved? ==> w.localStorage == AfterLogin(old(w.localStorage), reply.value)
    ensures reply.Rejected? ==> w.localStorage == old(w.localStorage)
  {
    r := reply;
    if reply.Resolved? {
      var data := reply.value;
      if data.token.Some? && data.token.value != "" {
        w.localStorage := w.localStorage[TokenKey := data.token.value];
        w.localStorage := w.localStorage[UserKey := EncodeUser(data.user)];
      }
    }
  }

  /**
   * `authService.logout`: `reply` is the outcome of `POST /Users/logout`.
   * The `finally` block removes both keys whatever the outcome; a failure
   * is still propagated.
   */
  method Logout(w: Window, reply: Outcome<()>) returns (r: Outcome<()>)
    modifies w
    ensures r == reply
    ensures w.localStorage == ClearSession(old(w.localStorage))
    ensures w.location == old(w.location)
  {
    r := reply;
    w.localStorage := w.localStorage - {TokenKey};
    w.localStorage := w.localStorage - {UserKey};
  }

  /** `authService.register`: hands back the outcome of `POST /Users/register` and touches no session state. */
  method Register(w: Window, reply: Outcome<RegisterResponse>) returns (r: Outcome<RegisterResponse>)
    ensures r == reply
  {
    r := reply;
  }

  // ---------------------------------------------------------------------
  // Properties of the session store.

  /** After a login that carries a token, the session is authenticated with that token and the user reads back unchanged. */
  lemma LoginRoundTrip(store: map<string, string>, response: LoginResponse)
    requires Truthy(response.token)
    ensures IsAuthenticated(AfterLogin(store, response))
    ensures StoredToken(AfterLogin(store, response)) == response.token
    ensures CurrentUser(AfterLogin(store, response)) == Resolved(Some(response.user))
  {
    var s := AfterLogin(store, response);
    UserRoundTrip(response.user);
    assert s[UserKey] == EncodeUser(response.user);
    assert EncodeUser(response.user)[0] == '{';
    assert EncodeUser(response.user) != "null";
  }

  /** After logout, or a forced logout, nobody is authenticated and there is no cached user. */
  lemma ClearedSessionIsAnonymous(store: map<string, string>)
    ensures !IsAuthenticated(ClearSession(store))
    ensures CurrentUser(ClearSession(store)) == Resolved(None)
  {
  }

  /** Every writer keeps "token present iff user present". */
  lemma WritersKeepSessionConsistent(store: map<string, string>, response: LoginResponse)
    requires SessionConsistent(store)
    ensures SessionConsistent(AfterLogin(store, response))
    ensures SessionConsistent(ClearSession(store))
  {
  }

  /** Once logged in, every request carries `Authorization: Bearer <token>`. */
  lemma LoginThenRequestCarriesToken(store: map<string, string>, response: LoginResponse, headers: map<string, string>)
    requires Truthy(response.token)
    ensures WithAuthorization(headers, AfterLogin(store, response))
         == headers["Authorization" := "Bearer " + response.token.value]
  {
  }
}

=== FILE: browser.dfy ===
/**
 * The browser globals the client session lives in: `window.localStorage`
 * (a string-to-string store) and `window.location.href`.
 */
module Browser {

  class Window {
    /** `localStorage`: `getItem(k)` is `localStorage[k]` when `k in localStorage`, else null. */
    var localStorage: map<string, string>
    /** `window.location.href`; assigning it navigates the whole page. */
    var location: string

    constructor (storage: map<string, string>, href: string)
      ensures localStorage == storage && location == href
    {
      localStorage := storage;
      location := href;
    }
  }
}

=== FILE: cart_page.dfy ===
/**
 * The cart page (src/pages/CartPage.tsx): the remove-or-update rule of the
 * quantity buttons, the emptiness test, the coupon guards and the
 * handlers that call the cart endpoints and then reload the cart.
 */
module CartPage {

  import opened Common
  import opened Text
  import opened Types
  import opened Api

  /** The cart endpoint a quantity or remove button calls. */
  datatype CartCall =
    | RemoveItem(itemId: int)
    | UpdateItem(itemId: int, quantity: int)

  /** The rule of `handleUpdateQuantity`: a new quantity of zero removes the line. */
  function QuantityCall(item: CartItem, newQuantity: int): (c: CartCall)
    ensures c.itemId == item.id
    ensures c.RemoveItem? <==> newQuantity == 0
    ensures c.UpdateItem? ==> c.quantity == newQuantity
  {
    if newQuantity == 0 then RemoveItem(item.id) else UpdateItem(item.id, newQuantity)
  }

  /** `/Cart/items/{itemId}`: both calls address the line by its id. */
  function CallUrl(c: CartCall): string {
    "/Cart/items/" + IntToString(c.itemId)
  }

  /**
   * The minus button removes a line exactly when its quantity is one, and
   * the plus button always updates; a 401 on either ends the session.
   */
  lemma QuantityButtons(item: CartItem)
    ensures QuantityCall(item, item.quantity - 1).RemoveItem? <==> item.quantity == 1
    ensures item.quantity != -1 ==> QuantityCall(item, item.quantity + 1) == UpdateItem(item.id, item.quantity + 1)
    ensures !ShouldSkipRedirect(CallUrl(QuantityCall(item, item.quantity - 1)))
  {
    var c := QuantityCall(item, item.quantity - 1);
    ProtectedUrls("/items/" + IntToString(c.itemId));
    assert CallUrl(c) == "/Cart" + ("/items/" + IntToString(c.itemId));
  }

  /** `isEmpty`: no cart, no items list, or an empty one. */
  predicate IsEmpty(cart: Option<Cart>) {
    cart.None? || cart.value.items.None? || |cart.value.items.value| == 0
  }

  /** `cart?.items?.map(...)`: the item rows the page renders, in the cart's order. */
  function RenderedItems(cart: Option<Cart>): seq<CartItem> {
    match cart
    case None => []
    case Some(c) =>
      match c.items
      case None => []
      case Some(items) => items
  }

  /**
   * The empty-cart panel and the item rows exclude each other: the panel
   * shows exactly when no row would be rendered, and otherwise every line
   * of the cart gets its row, in order.
   */
  lemma EmptyIffNoRows(cart: Option<Cart>)
    ensures IsEmpty(cart) <==> |RenderedItems(cart)| == 0
    ensures !IsEmpty(cart) ==> RenderedItems(cart) == cart.value.items.value
  {
  }

  /** `!couponCode.trim()`: the apply button is disabled and the handler returns at once. */
  predicate CouponBlank(code: string) {
    Trim(code) == ""
  }

  const LoadFailed: string := "Failed to load cart"

  class CartView {
    var cart: Option<Cart>
    var loading: bool
    var error: Option<string>
    var updatingItem: Option<int>
    var couponCode: string
    var applyingCoupon: bool

    constructor ()
      ensures cart.None? && loading && error.None? && updatingItem.None?
      ensures couponCode == "" && !applyingCoupon
    {
      cart, loading, error, updatingItem := None, true, None, None;
      couponCode, applyingCoupon := "", false;
    }

    /** `loadCart`: `reply` is the outcome of `GET /Cart`; a failure keeps the old cart and shows the error. */
    method LoadCart(reply: Outcome<Cart>)
      modifies this`cart, this`loading, this`error
      ensures !loading
      ensures reply.Resolved? ==> cart == Some(reply.value) && error.None?
      ensures reply.Rejected? ==> cart == old(cart) && error == Some(LoadFailed)
    {
      loading := true;
      error := None;
      match reply {
        case Resolved(data) => cart := Some(data);
        case Rejected(_) => error := Some(LoadFailed);
      }
      loading := false;
    }

    /**
     * `handleUpdateQuantity`: calls remove or update by the quantity rule,
     * and reloads the cart only if that call succeeded. A failed call is
     * only logged.
     */
    method UpdateQuantity(item: CartItem, newQuantity: int, reply: Outcome<Cart>, reload: Outcome<Cart>)
      returns (call: CartCall, reloaded: bool)
      modifies this`updatingItem, this`cart, this`loading, this`error
      ensures call == QuantityCall(item, newQuantity)
      ensures reloaded <==> reply.Resolved?
      ensures reloaded ==> !loading
      ensures reloaded && reload.Resolved? ==> cart == Some(reload.value) && error.None?
      ensures reloaded && reload.Rejected? ==> cart == old(cart) && error == Some(LoadFailed)
      ensures !reloaded ==> cart == old(cart) && error == old(error) && loading == old(loading)
      ensures updatingItem.None?
    {
      updatingItem := Some(item.id);
      call := QuantityCall(item, newQuantity);
      reloaded := reply.Resolved?;
      if reloaded {
        LoadCart(reload);
      }
      updatingItem := None;
    }

    /** `handleRemoveItem`: the Remove button, whatever the quantity. */
    method RemoveItemLine(itemId: int, reply: Outcome<Cart>, reload: Outcome<Cart>)
      returns (call: CartCall, reloaded: bool)
      modifies this`updatingItem, this`cart, this`loading, this`error
      ensures call == RemoveItem(itemId)
      ensures reloaded <==> reply.Resolved?
      ensures reloaded ==> !loading
      ensures reloaded && reload.Resolved? ==> cart == Some(reload.value) && error.None?
      ensures reloaded && reload.Rejected? ==> cart == old(cart) && error == Some(LoadFailed)
      ensures !reloaded ==> cart == old(cart) && error == old(error) && loading == old(loading)
      ensures updatingItem.None?
    {
      updatingItem := Some(itemId);
      call := RemoveItem(itemId);
      reloaded := reply.Resolved?;
      if reloaded {
        LoadCart(reload);
      }
      updatingItem := None;
    }

    /**
     * `handleClearCart`: `confirmed` is the answer to the browser's confirm
     * dialog. A failed clear is only logged; `loading` is off afterwards
     * either way.
     */
    method ClearCart(confirmed: bool, reply: Outcome<Cart>, reload: Outcome<Cart>)
      returns (called: bool, reloaded: bool)
      modifies this`cart, this`loading, this`error
      ensures called <==> confirmed
      ensures reloaded <==> confirmed && reply.Resolved?
      ensures !confirmed ==> cart == old(cart) && loading == old(loading) && error == old(error)
      ensures confirmed ==> !loading
      ensures reloaded && reload.Resolved? ==> cart == Some(reload.value) && error.None?
      ensures reloaded && reload.Rejected? ==> cart == old(cart) && error == Some(LoadFailed)
      ensures confirmed && !reloaded ==> cart == old(cart) && error == old(error)
    {
      reloaded := false;
      if !confirmed {
        return false, false;
      }
      called := true;
      loading := true;
      if reply.Resolved? {
        LoadCart(reload);
        reloaded := true;
      }
      loading := false;
    }

    /**
     * `handleApplyCoupon`. A code that trims to nothing makes no call; any
     * other code is sent exactly as typed. The field is emptied only after
     * the server accepted the code, even when the reload then fails.
     */
    method ApplyCoupon(reply: Outcome<()>, reload: Outcome<Cart>) returns (sent: Option<string>)
      modifies this`applyingCoupon, this`couponCode, this`cart, this`loading, this`error
      ensures sent.None? <==> AllSpace(old(couponCode))
      ensures sent.Some? ==> sent.value == old(couponCode)
      ensures sent.Some? && reply.Resolved? ==> couponCode == "" && !loading
      ensures sent.Some? && reply.Resolved? && reload.Resolved? ==> cart == Some(reload.value) && error.None?
      ensures sent.Some? && reply.Resolved? && reload.Rejected? ==> cart == old(cart) && error == Some(LoadFailed)
      ensures sent.None? || reply.Rejected? ==>
        couponCode == old(couponCode) && cart == old(cart) && error == old(error) && loading == old(loading)
      ensures sent.Some? ==> !applyingCoupon
      ensures sent.None? ==> applyingCoupon == old(applyingCoupon)
    {
      TrimEmptyIffAllSpace(couponCode);
      if CouponBlank(couponCode) {
        return None;
      }
      applyingCoupon := true;
      sent := Some(couponCode);
      if reply.Resolved? {
        LoadCart(reload);
        couponCode := "";
      }
      applyingCoupon := false;
    }

    /** `handleRemoveCoupon`: reloads the cart after the server removed the coupon. */
    method RemoveCoupon(reply: Outcome<()>, reload: Outcome<Cart>) returns (reloaded: bool)
      modifies this`cart, this`loading, this`error
      ensures reloaded <==> reply.Resolved?
      ensures reloaded ==> !loading
      ensures reloaded && reload.Resolved? ==> cart == Some(reload.value) && error.None?
      ensures reloaded && reload.Rejected? ==> cart == old(cart) && error == Some(LoadFailed)
      ensures !reloaded ==> cart == old(cart) && error == old(error) && loading == old(loading)
    {
      reloaded := reply.Resolved?;
      if reloaded {
        LoadCart(reload);
      }
    }
  }
}

=== FILE: common.dfy ===
/**
 * Values shared by every part of the storefront model: optional values
 * (the source's `T | null` and `T | undefined`), the outcome of an awaited
 * backend call, and the values such a call can throw.
 */
module Common {

  /** `T | null`: the source's nullable fields and absent query parameters. */
  datatype Option<+T> = None | Some(value: T)

  /** What an awaited service call produced: a value or a thrown value. */
  datatype Outcome<+T> = Resolved(value: T) | Rejected(error: Thrown)

  /**
   * A thrown value. Requests to the backend fail with an axios error, an
   * `Error` that may carry the HTTP status of the response and the URL of
   * the request; code may also throw other `Error`s, or values that are not
   * `Error`s at all.
   */
  datatype Thrown =
    | AxiosError(message: string, status: Option<int>, url: Option<string>)
    | PlainError(message: string)
    | NonError

  /** `err instanceof Error` */
  predicate IsErrorInstance(t: Thrown) {
    !t.NonError?
  }

  /**
   * `err instanceof Error ? err.message : fallback`, the message selection
   * the registration, login and review forms use.
   */
  function MessageOr(t: Thrown, fallback: string): (m: string)
    ensures IsErrorInstance(t) ==> m == t.message
    ensures !IsErrorInstance(t) ==> m == fallback
  {
    match t
    case AxiosError(msg, _, _) => msg
    case PlainError(msg) => msg
    case NonError => fallback
  }

  /** JavaScript truthiness of a `string | null`: present and non-empty. */
  predicate Truthy(s: Option<string>) {
    s.Some? && s.value != ""
  }

  /** `s || null` on a form field: the empty string becomes null. */
  function EmptyToNull(s: string): (r: Option<string>)
    ensures r.None? <==> s == ""
    ensures r.Some? ==> r.value == s
  {
    if s == "" then None else Some(s)
  }

  /** `s || ''` on a nullable field: null and '' both become ''. */
  function NullToEmpty(s: Option<string>): (r: string)
    ensures Truthy(s) ==> r == s.value
    ensures !Truthy(s) ==> r == ""
  {
    if s.Some? then s.value else ""
  }

  /** Mapping a loaded value to a form field and back forgets only the difference between null and ''. */
  lemma EmptyToNullAfterNullToEmpty(s: Option<string>)
    ensures EmptyToNull(NullToEmpty(s)) == (if Truthy(s) then s else None)
  {
  }
}

=== FILE: json.dfy ===
/**
 * `JSON.stringify` and `JSON.parse` as the session store uses them: the
 * cached `UserInfo` record is written as JSON text under the `user` key and
 * read back on every `getCurrentUser()`.
 *
 * The encoder writes the record's members in the order `UserInfo` declares
 * them and escapes strings the way ECMAScript's `JSON.stringify` does
 * (QuoteJSONString). The decoder reads JSON text of that shape; the round
 * trip `DecodeUser(EncodeUser(u)) == Some(u)` is proved below.
 */
module Json {

  import opened Common
  import opened Text
  import opened Types

  // ---------------------------------------------------------------------
  // Hexadecimal digits of `\uXXXX` escapes.

  function HexDigit(d: nat): (c: char)
    requires d < 16
  {
    if d < 10 then DigitChar(d) else ('a' as int + d - 10) as char
  }

  function HexValue(c: char): (r: Option<nat>)
    ensures r.Some? ==> r.value < 16
  {
    if '0' <= c <= '9' then Some(c as int - '0' as int)
    else if 'a' <= c <= 'f' then Some(c as int - 'a' as int + 10)
    else if 'A' <= c <= 'F' then Some(c as int - 'A' as int + 10)
    else None
  }

  lemma HexRoundTrip(d: nat)
    requires d < 16
    ensures HexValue(HexDigit(d)) == Some(d)
  {
  }

  // ---------------------------------------------------------------------
  // String literals.

  /** How `JSON.stringify` writes one character inside a string literal. */
  function EscapeChar(c: char): (r: string)
    ensures |r| >= 1 && (r[0] == '\\' <==> |r| > 1)
    ensures r[0] != '"'
  {
    if c == '"' then "\\\""
    else if c == '\\' then "\\\\"
    else if c == '\U{0008}' then "\\b"
    else if c == '\t' then "\\t"
    else if c == '\n' then "\\n"
    else if c == '\U{000C}' then "\\f"
    else if c == '\r' then "\\r"
    else if c < ' ' then "\\u00" + [HexDigit(c as int / 16), HexDigit(c as int % 16)]
    else [c]
  }

  function EscapeBody(s: string): string {
    if s == [] then "" else EscapeChar(s[0]) + EscapeBody(s[1..])
  }

  /** A JSON string literal for `s`. */
  function Quote(s: string): (r: string)
    ensures |r| >= 2 && r[0] == '"'
  {
    "\"" + EscapeBody(s) + "\""
  }

  /**
   * The escape sequence at the head of `t`: the character it denotes and
   * how many characters it spans. `\uXXXX` naming a UTF-16 surrogate is
   * refused (a Dafny `char` is a Unicode scalar value).
   */
  function Unescape(t: string): (r: Option<(char, nat)>)
    requires |t| >= 1 && t[0] == '\\'
    ensures r.Some? ==> 2 <= r.value.1 <= |t|
  {
    if |t| < 2 then None
    else if t[1] == '"' then Some(('"', 2))
    else if t[1] == '\\' then Some(('\\', 2))
    else if t[1] == '/' then Some(('/', 2))
    else if t[1] == 'b' then Some(('\U{0008}', 2))
    else if t[1] == 'f' then Some(('\U{000C}', 2))
    else if t[1] == 'n' then Some(('\n', 2))
    else if t[1] == 'r' then Some(('\r', 2))
    else if t[1] == 't' then Some(('\t', 2))
    else if t[1] == 'u' && |t| >= 6 then
      match (HexValue(t[2]), HexValue(t[3]), HexValue(t[4]), HexValue(t[5]))
      case (Some(a), Some(b), Some(c), Some(d)) =>
        var v := ((a * 16 + b) * 16 + c) * 16 + d;
        if 0xD800 <= v < 0xE000 then None else Some((v as char, 6))
      case _ => None
    else None
  }

  /** The characters of a string literal after its opening quote, and the text after its closing quote. */
  function ParseChars(t: string): (r: Option<(string, string)>)
    decreases |t|
  {
    if t == [] then None
    else if t[0] == '"' then Some(("", t[1..]))
    else if t[0] == '\\' then
      match Unescape(t)
      case None => None
      case Some((c, n)) =>
        match ParseChars(t[n..])
        case None => None
        case Some((s, rest)) => Some(([c] + s, rest))
    else if t[0] < ' ' then None
    else
      match ParseChars(t[1..])
      case None => None
      case Some((s, rest)) => Some(([t[0]] + s, rest))
  }

  function ParseString(t: string): Option<(string, string)> {
    if t != [] && t[0] == '"' then ParseChars(t[1..]) else None
  }

  /** Reading one escaped character consumes exactly its escape. */
  lemma EscapeCharStep(c: char, tail: string)
    requires ParseChars(tail).Some?
    ensures ParseChars(EscapeChar(c) + tail)
         == Some(([c] + ParseChars(tail).value.0, ParseChars(tail).value.1))
  {
    var t := EscapeChar(c) + tail;
    if c == '"' || c == '\\' || c == '\U{0008}' || c == '\t' || c == '\n' || c == '\U{000C}' || c == '\r' {
      assert t[2..] == tail;
    } else if c < ' ' {
      var hi, lo := c as int / 16, c as int % 16;
      HexRoundTrip(hi);
      HexRoundTrip(lo);
      assert t[2] == '0' && t[3] == '0' && t[4] == HexDigit(hi) && t[5] == HexDigit(lo);
      assert Unescape(t) == Some((c, 6));
      assert t[6..] == tail;
    } else {
      assert t[1..] == tail;
    }
  }

  lemma {:induction false} ParseCharsRoundTrip(s: string, rest: string)
    ensures ParseChars(EscapeBody(s) + "\"" + rest) == Some((s, rest))
  {
    if s == [] {
      assert EscapeBody(s) + "\"" + rest == "\"" + rest;
    } else {
      var tail := EscapeBody(s[1..]) + "\"" + rest;
      assert EscapeBody(s) + "\"" + rest == EscapeChar(s[0]) + tail;
      ParseCharsRoundTrip(s[1..], rest);
      EscapeCharStep(s[0], tail);
      assert [s[0]] + s[1..] == s;
    }
  }

  /** `JSON.parse` of a `JSON.stringify`d string gives the string back. */
  lemma ParseStringRoundTrip(s: string, rest: string)
    ensures ParseString(Quote(s) + rest) == Some((s, rest))
  {
    ParseCharsRoundTrip(s, rest);
    assert (Quote(s) + rest)[1..] == EscapeBody(s) + "\"" + rest;
  }

  // ---------------------------------------------------------------------
  // Integers.

  /** The length of the run of digits at the head of `t`. */
  function DigitRun(t: string): (k: nat)
    ensures k <= |t| && AllDigits(t[..k])
    ensures k < |t| ==> !IsDigit(t[k])
  {
    if t != [] && IsDigit(t[0]) then
      var k := 1 + DigitRun(t[1..]);
      assert t[..k] == [t[0]] + t[1..][..k - 1];
      k
    else 0
  }

  lemma {:induction false} DigitRunOfDigits(d: string, rest: string)
    requires AllDigits(d)
    requires rest == [] || !IsDigit(rest[0])
    ensures DigitRun(d + rest) == |d|
  {
    if d != [] {
      assert (d + rest)[1..] == d[1..] + rest;
      DigitRunOfDigits(d[1..], rest);
    }
  }

  /** An integer literal at the head of `t` and the text after it. */
  function ParseNumber(t: string): Option<(int, string)> {
    if t != [] && t[0] == '-' then
      var k := DigitRun(t[1..]);
      if k == 0 then None else Some((-(DigitsValue(t[1..][..k]) as int), t[1..][k..]))
    else
      var k := DigitRun(t);
      if k == 0 then None else Some((DigitsValue(t[..k]) as int, t[k..]))
  }

  lemma ParseNumberRoundTrip(i: int, rest: string)
    requires rest == [] || !IsDigit(rest[0])
    ensures ParseNumber(IntToString(i) + rest) == Some((i, rest))
  {
    if i < 0 {
      NegativeNumberRoundTrip(-i, rest);
    } else {
      var d := NatToString(i);
      var t := d + rest;
      DigitRunOfDigits(d, rest);
      assert t[..|d|] == d && t[|d|..] == rest;
      NatToStringValue(i);
      assert t[0] != '-';
    }
  }

  lemma NegativeNumberRoundTrip(n: nat, rest: string)
    requires n > 0
    requires rest == [] || !IsDigit(rest[0])
    ensures ParseNumber("-" + NatToString(n) + rest) == Some((-(n as int), rest))
  {
    var d := NatToString(n);
    var t := "-" + d + rest;
    assert t[1..] == d + rest;
    DigitRunOfDigits(d, rest);
    assert t[1..][..|d|] == d && t[1..][|d|..] == rest;
    NatToStringValue(n);
  }

  // ---------------------------------------------------------------------
  // `string | null` values.

  function EncodeOpt(v: Option<string>): string {
    match v
    case None => "null"
    case Some(s) => Quote(s)
  }

  function ParseOpt(t: string): Option<(Option<string>, string)> {
    if StartsWith(t, "null") then Some((None, t[4..]))
    else
      match ParseString(t)
      case None => None
      case Some((s, rest)) => Some((Some(s), rest))
  }

  lemma ParseOptRoundTrip(v: Option<string>, rest: string)
    ensures ParseOpt(EncodeOpt(v) + rest) == Some((v, rest))
  {
    match v
    case None =>
      assert (EncodeOpt(v) + rest)[..4] == "null";
      assert (EncodeOpt(v) + rest)[4..] == rest;
    case Some(s) =>
      assert (EncodeOpt(v) + rest)[0] == '"';
      ParseStringRoundTrip(s, rest);
  }

  // ---------------------------------------------------------------------
  // The UserInfo object.

  /** The members after `id`, in the order `UserInfo` declares them. */
  const UserKeys: seq<string> := ["username", "email", "firstName", "lastName", "phoneNumber", "role", "createdAt"]

  function UserValues(u: UserInfo): (vs: seq<Option<string>>)
    ensures |vs| == |UserKeys|
  {
    [u.username, u.email, u.firstName, u.lastName, u.phoneNumber, u.role, Some(u.createdAt)]
  }

  function MemberPrefix(key: string): string {
    "," + Quote(key) + ":"
  }

  function EncodeMembers(ks: seq<string>, vs: seq<Option<string>>): string
    requires |ks| == |vs|
  {
    if ks == [] then "" else MemberPrefix(ks[0]) + EncodeOpt(vs[0]) + EncodeMembers(ks[1..], vs[1..])
  }

  /** One `,"key":value` member whose key is `key`; the value and the text after it. */
  function ParseMember(key: string, t: string): Option<(Option<string>, string)> {
    if !StartsWith(t, MemberPrefix(key)) then None
    else ParseOpt(t[|MemberPrefix(key)|..])
  }

  function ParseMembers(ks: seq<string>, t: string): (r: Option<(seq<Option<string>>, string)>)
    ensures r.Some? ==> |r.value.0| == |ks|
  {
    if ks == [] then Some(([], t))
    else
      match ParseMember(ks[0], t)
      case None => None
      case Some((v, t')) =>
        match ParseMembers(ks[1..], t')
        case None => None
        case Some((vs, rest)) => Some(([v] + vs, rest))
  }

  lemma ParseMemberRoundTrip(key: string, v: Option<string>, tail: string)
    ensures ParseMember(key, MemberPrefix(key) + (EncodeOpt(v) + tail)) == Some((v, tail))
  {
    SplitAfterPrefix(MemberPrefix(key), EncodeOpt(v) + tail);
    ParseOptRoundTrip(v, tail);
  }

  lemma SplitAfterPrefix(p: string, t: string)
    ensures StartsWith(p + t, p) && (p + t)[|p|..] == t
  {
    assert (p + t)[..|p|] == p;
  }

  /** One member of the encoding, regrouped as prefix, value and the rest. */
  lemma EncodeMembersStep(ks: seq<string>, vs: seq<Option<string>>, rest: string)
    requires |ks| == |vs| && ks != []
    ensures EncodeMembers(ks, vs) + rest
         == MemberPrefix(ks[0]) + (EncodeOpt(vs[0]) + (EncodeMembers(ks[1..], vs[1..]) + rest))
  {
  }

  /** One step of the member parser, once the member parsed. */
  lemma ParseMembersStep(ks: seq<string>, t: string, v: Option<string>, t': string, vs: seq<Option<string>>, rest: string)
    requires ks != [] && ParseMember(ks[0], t) == Some((v, t'))
    requires ParseMembers(ks[1..], t') == Some((vs, rest))
    ensures ParseMembers(ks, t) == Some(([v] + vs, rest))
  {
  }

  lemma {:induction false} ParseMembersRoundTrip(ks: seq<string>, vs: seq<Option<string>>, rest: string)
    requires |ks| == |vs|
    ensures ParseMembers(ks, EncodeMembers(ks, vs) + rest) == Some((vs, rest))
  {
    if ks != [] {
      var tail := EncodeMembers(ks[1..], vs[1..]) + rest;
      EncodeMembersStep(ks, vs, rest);
      ParseMemberRoundTrip(ks[0], vs[0], tail);
      ParseMembersRoundTrip(ks[1..], vs[1..], rest);
      ParseMembersStep(ks, EncodeMembers(ks, vs) + rest, vs[0], tail, vs[1..], rest);
      assert [vs[0]] + vs[1..] == vs;
    } else {
      assert vs == [] && EncodeMembers(ks, vs) + rest == rest;
    }
  }

  lemma EncodeMembersStartsWithComma(ks: seq<string>, vs: seq<Option<string>>)
    requires |ks| == |vs| && ks != []
    ensures EncodeMembers(ks, vs) != [] && EncodeMembers(ks, vs)[0] == ','
  {
  }

  const UserHead: string := "{\"id\":"

  /** `JSON.stringify(user)` */
  function EncodeUser(u: UserInfo): string {
    UserHead + IntToString(u.id) + EncodeMembers(UserKeys, UserValues(u)) + "}"
  }

  /** `JSON.parse(text)` read as a `UserInfo`; None where it would throw or yield another shape. */
  function DecodeUser(t: string): Option<UserInfo> {
    DecodeRecord(UserKeys, t)
  }

  /** An object whose first member is `id` and whose further members are `ks`, all of type `string | null`. */
  function DecodeRecord(ks: seq<string>, t: string): Option<UserInfo>
    requires |ks| == 7
  {
    if !StartsWith(t, UserHead) then None
    else
      match ParseNumber(t[|UserHead|..])
      case None => None
      case Some((id, t1)) =>
        match ParseMembers(ks, t1)
        case None => None
        case Some((vs, t2)) =>
          if t2 == "}" && vs[6].Some? then
            Some(UserInfo(id, vs[0], vs[1], vs[2], vs[3], vs[4], vs[5], vs[6].value))
          else None
  }

  /** What `JSON.stringify` writes, `JSON.parse` reads back unchanged. */
  lemma UserRoundTrip(u: UserInfo)
    ensures DecodeUser(EncodeUser(u)) == Some(u)
  {
    var vs := UserValues(u);
    var members := EncodeMembers(UserKeys, vs);
    EncodeMembersStartsWithComma(UserKeys, vs);
    ParseMembersRoundTrip(UserKeys, vs, "}");
    DecodeRecordParts(UserKeys, u.id, vs, members);
  }

  lemma DecodeRecordParts(ks: seq<string>, id: int, vs: seq<Option<string>>, members: string)
    requires |ks| == 7 && |vs| == 7 && vs[6].Some?
    requires members != [] && members[0] == ','
    requires ParseMembers(ks, members + "}") == Some((vs, "}"))
    ensures DecodeRecord(ks, UserHead + IntToString(id) + members + "}")
         == Some(UserInfo(id, vs[0], vs[1], vs[2], vs[3], vs[4], vs[5], vs[6].value))
  {
    var t := UserHead + IntToString(id) + members + "}";
    var num := IntToString(id);
    assert t == UserHead + (num + (members + "}"));
    assert t[..|UserHead|] == UserHead;
    assert t[|UserHead|..] == num + (members + "}");
    ParseNumberRoundTrip(id, members + "}");
  }
}

=== FILE: login_page.dfy ===
/**
 * The sign-in form (src/pages/LoginPage.tsx): the non-empty check, the
 * call to `authService.login` and the message shown when it fails.
 */
module LoginPage {

  import opened Common
  import opened Types
  import opened Browser
  import opened Api
  import AuthService

  datatype LoginForm = LoginForm(username: string, password: string)

  const EmptyForm: LoginForm := LoginForm("", "")

  /** The `name` attributes of the form's inputs. */
  datatype LoginField = Username | Password

  /** `{ ...formData, [name]: value }` */
  function WithField(form: LoginForm, field: LoginField, value: string): LoginForm {
    match field
    case Username => form.(username := value)
    case Password => form.(password := value)
  }

  const MissingCredentials: string := "Please enter both username and password"
  const LoginFallback: string := "Invalid username or password"

  /** The only client-side check: both fields non-empty. */
  function ValidationError(form: LoginForm): (r: Option<string>)
    ensures r.None? <==> form.username != "" && form.password != ""
    ensures r.Some? ==> r.value == MissingCredentials
  {
    if form.username == "" || form.password == "" then Some(MissingCredentials) else None
  }

  class LoginView {
    var formData: LoginForm
    var loading: bool
    var error: Option<string>
    /** The route `navigate` was last called with, if any. */
    var navigatedTo: Option<string>

    constructor ()
      ensures formData == EmptyForm && !loading && error.None? && navigatedTo.None?
    {
      formData, loading, error, navigatedTo := EmptyForm, false, None, None;
    }

    /** `handleChange`: stores the value and clears the error. */
    method HandleChange(field: LoginField, value: string)
      modifies this
      ensures formData == WithField(old(formData), field, value)
      ensures error.None?
      ensures loading == old(loading) && navigatedTo == old(navigatedTo)
    {
      formData := WithField(formData, field, value);
      error := None;
    }

    /**
     * `handleSubmit`. `reply` is the outcome of `POST /Users/login`, handed
     * to `authService.login`, which writes the session on success.
     */
    method HandleSubmit(w: Window, reply: Outcome<LoginResponse>) returns (request: Option<LoginRequest>)
      modifies this, w
      ensures request.Some? <==> old(formData).username != "" && old(formData).password != ""
      ensures request.None? ==>
        error == Some(MissingCredentials) && navigatedTo == old(navigatedTo)
        && w.localStorage == old(w.localStorage) && loading == old(loading)
      ensures request.Some? ==>
        request.value == LoginRequest(Some(old(formData).username), Some(old(formData).password)) && !loading
      ensures request.Some? && reply.Resolved? ==>
        navigatedTo == Some("/") && error.None?
        && w.localStorage == AuthService.AfterLogin(old(w.localStorage), reply.value)
      ensures request.Some? && reply.Rejected? ==>
        navigatedTo == old(navigatedTo) && error == Some(MessageOr(reply.error, LoginFallback))
        && w.localStorage == old(w.localStorage)
      ensures w.location == old(w.location) && formData == old(formData)
    {
      var invalid := ValidationError(formData);
      if invalid.Some? {
        error := invalid;
        return None;
      }
      loading := true;
      error := None;
      request := Some(LoginRequest(Some(formData.username), Some(formData.password)));
      var r := AuthService.Login(w, reply);
      match r {
        case Resolved(_) =>
          navigatedTo := Some("/");
        case Rejected(e) =>
          error := Some(MessageOr(e, LoginFallback));
      }
      loading := false;
    }
  }

  /** A successful sign-in whose response carries a token leaves the visitor authenticated as that user. */
  method SignInAuthenticates(w: Window, view: LoginView, response: LoginResponse)
    requires view.formData.username != "" && view.formData.password != ""
    requires Truthy(response.token)
    modifies view, w
    ensures AuthService.IsAuthenticated(w.localStorage)
    ensures AuthService.CurrentUser(w.localStorage) == Resolved(Some(response.user))
    ensures view.navigatedTo == Some("/")
  {
    var _ := view.HandleSubmit(w, Resolved(response));
    AuthService.LoginRoundTrip(old(w.localStorage), response);
  }

  /**
   * A wrong password: `POST /Users/login` answers 401. That endpoint is
   * not on the allow-list, so before the form sees the failure the
   * response interceptor removes whatever session was stored and assigns
   * `/login` to the location. The form's error is then set to the thrown
   * error's own message (for axios, "Request failed with status code 401",
   * not the server's text) and `navigate` is not called. The page load the
   * assignment starts is recorded only in `w.location`.
   */
  method WrongPasswordEndsSession(w: Window, view: LoginView, message: string)
    requires view.formData.username != "" && view.formData.password != ""
    modifies w, view
    ensures w.localStorage == ClearSession(old(w.localStorage)) && w.location == LoginRoute
    ensures !AuthService.IsAuthenticated(w.localStorage)
    ensures view.error == Some(message) && view.navigatedTo == old(view.navigatedTo)
  {
    var failure := AxiosError(message, Some(401), Some("/Users/login"));
    ProtectedUrls("login");
    assert RequestUrl(failure) == "/Users/" + "login";
    var failed: Outcome<LoginResponse> := Rejected(failure);
    var seen := InterceptResponse(w, failed);
    var _ := view.HandleSubmit(w, seen);
    AuthService.ClearedSessionIsAnonymous(old(w.localStorage));
  }
}

=== FILE: orders_page.dfy ===
/**
 * The order history (src/pages/OrdersPage.tsx): the status tables, the
 * rule that offers cancelling, the highlight of a just-placed order, and
 * the handlers that load and cancel orders.
 */
module OrdersPage {

  import opened Common
  import opened Text
  import opened Types
  import opened Browser
  import opened Api
  import AuthService

  /** `statusLabels[status]`; None where the record has no entry (rendered as nothing). */
  function StatusLabel(status: int): (r: Option<string>)
    ensures r.Some? <==> Pending <= status <= Cancelled
  {
    if status == Pending then Some("Pending")
    else if status == Processing then Some("Processing")
    else if status == Shipped then Some("Shipped")
    else if status == Delivered then Some("Delivered")
    else if status == Cancelled then Some("Cancelled")
    else None
  }

  /** `statusColors[status]`, the badge classes; None where the record has no entry. */
  function StatusColor(status: int): (r: Option<string>)
    ensures r.Some? <==> Pending <= status <= Cancelled
  {
    if status == Pending then Some("bg-yellow-100 text-yellow-800")
    else if status == Processing then Some("bg-blue-100 text-blue-800")
    else if status == Shipped then Some("bg-purple-100 text-purple-800")
    else if status == Delivered then Some("bg-green-100 text-green-800")
    else if status == Cancelled then Some("bg-red-100 text-red-800")
    else None
  }

  /** Both tables in full, and five statuses with five different labels and colours. */
  lemma StatusTables(a: int, b: int)
    ensures StatusLabel(Pending) == Some("Pending") && StatusLabel(Processing) == Some("Processing")
    ensures StatusLabel(Shipped) == Some("Shipped") && StatusLabel(Delivered) == Some("Delivered")
    ensures StatusLabel(Cancelled) == Some("Cancelled")
    ensures StatusColor(Pending) == Some("bg-yellow-100 text-yellow-800")
    ensures StatusColor(Processing) == Some("bg-blue-100 text-blue-800")
    ensures StatusColor(Shipped) == Some("bg-purple-100 text-purple-800")
    ensures StatusColor(Delivered) == Some("bg-green-100 text-green-800")
    ensures StatusColor(Cancelled) == Some("bg-red-100 text-red-800")
    ensures Pending <= a <= Cancelled && Pending <= b <= Cancelled && a != b ==>
      StatusLabel(a) != StatusLabel(b) && StatusColor(a) != StatusColor(b)
  {
  }

  /** The Cancel button is shown for pending orders only. */
  predicate CanCancel(order: Order) {
    order.status == Pending
  }

  /** The Cancel button appears exactly on the orders whose badge reads Pending. */
  lemma CancelOfferedWhilePending(order: Order)
    ensures CanCancel(order) <==> StatusLabel(order.status) == Some("Pending")
  {
  }

  /** `/Orders/{id}/cancel`, where a cancellation is sent. */
  function CancelUrl(orderId: int): string {
    "/Orders/" + IntToString(orderId) + "/cancel"
  }

  /** The cancel endpoint is not on the allow-list: a 401 there ends the session. */
  lemma CancelUrlProtected(orderId: int)
    ensures !ShouldSkipRedirect(CancelUrl(orderId))
  {
    var url := CancelUrl(orderId);
    assert url[1] == 'O';
    if ShouldSkipRedirect(url) {
      ExemptUrlShape(url);
    }
  }

  /** `newOrderId === String(order.id)`: the card of the order just placed gets a ring. */
  predicate IsHighlighted(newOrder: Option<string>, order: Order) {
    newOrder == Some(IntToString(order.id))
  }

  /** `newOrderId &&`: the success banner shows for any non-empty `newOrder` value. */
  predicate ShowsSuccessBanner(newOrder: Option<string>) {
    Truthy(newOrder)
  }

  /**
   * The query value selects orders by their exact decimal id: orders with
   * different ids are never highlighted together, the id as `String` writes
   * it is highlighted, and a highlighted order always comes with the banner.
   */
  lemma HighlightSelectsOneId(newOrder: Option<string>, o1: Order, o2: Order)
    ensures IsHighlighted(newOrder, o1) && IsHighlighted(newOrder, o2) ==> o1.id == o2.id
    ensures IsHighlighted(Some(IntToString(o1.id)), o1)
    ensures IsHighlighted(newOrder, o1) ==> ShowsSuccessBanner(newOrder)
  {
    IntToStringInjective(o1.id, o2.id);
  }

  /** A padded value such as `007` highlights no order, not even order 7. */
  lemma LeadingZeroHighlightsNothing(digits: string, order: Order)
    requires |digits| >= 2 && digits[0] == '0'
    ensures !IsHighlighted(Some(digits), order)
  {
    var s := IntToString(order.id);
    if order.id < 0 {
      assert s[0] == '-';
    } else {
      assert s == NatToString(order.id);
    }
  }

  const LoadFailed: string := "Failed to load orders"

  class OrdersView {
    var orders: seq<Order>
    var loading: bool
    var error: Option<string>
    /** The route `navigate` was last called with, if any. */
    var navigatedTo: Option<string>

    constructor ()
      ensures orders == [] && loading && error.None? && navigatedTo.None?
    {
      orders, loading, error, navigatedTo := [], true, None, None;
    }

    /** `loadOrders`; `reply` is the outcome of `GET /Orders/my-orders`. */
    method LoadOrders(reply: Outcome<seq<Order>>)
      modifies this`orders, this`loading, this`error
      ensures !loading
      ensures reply.Resolved? ==> orders == reply.value && error.None?
      ensures reply.Rejected? ==> orders == old(orders) && error == Some(LoadFailed)
    {
      loading := true;
      error := None;
      match reply {
        case Resolved(data) => orders := data;
        case Rejected(_) => error := Some(LoadFailed);
      }
      loading := false;
    }

    /** The mount effect: an anonymous visitor is sent to `/login` and nothing is loaded. */
    method Mount(w: Window, reply: Outcome<seq<Order>>) returns (loaded: bool)
      modifies this`orders, this`loading, this`error, this`navigatedTo
      ensures loaded <==> AuthService.IsAuthenticated(w.localStorage)
      ensures !loaded ==>
        navigatedTo == Some("/login") && orders == old(orders) && loading == old(loading) && error == old(error)
      ensures loaded ==> navigatedTo == old(navigatedTo) && !loading
      ensures loaded && reply.Resolved? ==> orders == reply.value && error.None?
      ensures loaded && reply.Rejected? ==> orders == old(orders) && error == Some(LoadFailed)
    {
      if !AuthService.IsAuthenticated(w.localStorage) {
        navigatedTo := Some("/login");
        return false;
      }
      LoadOrders(reply);
      loaded := true;
    }

    /**
     * `handleCancelOrder`: no call unless the confirm dialog was accepted;
     * the list is reloaded only after the server cancelled the order. A
     * failed cancellation only raises an alert.
     */
    method CancelOrder(orderId: int, confirmed: bool, reply: Outcome<()>, reload: Outcome<seq<Order>>)
      returns (called: Option<string>, reloaded: bool)
      modifies this`orders, this`loading, this`error
      ensures called.Some? <==> confirmed
      ensures called.Some? ==> called.value == CancelUrl(orderId)
      ensures reloaded <==> confirmed && reply.Resolved?
      ensures !reloaded ==> orders == old(orders) && error == old(error) && loading == old(loading)
      ensures reloaded ==> !loading
      ensures reloaded && reload.Resolved? ==> orders == reload.value && error.None?
      ensures reloaded && reload.Rejected? ==> orders == old(orders) && error == Some(LoadFailed)
    {
      reloaded := false;
      if !confirmed {
        return None, false;
      }
      called := Some(CancelUrl(orderId));
      if reply.Resolved? {
        LoadOrders(reload);
        reloaded := true;
      }
    }
  }
}

=== FILE: payment_method_service.dfy ===
/**
 * The client-side parts of `paymentMethodService`
 * (src/services/paymentMethodService.ts): the record shapes, the list
 * default of `getPaymentMethods`, and the label and icon tables.
 */
module PaymentMethodService {

  import opened Common

  /** `PaymentMethodType`, a numeric enum: at run time any number can arrive. */
  const CreditCard: int := 0
  const DebitCard: int := 1
  const PayPal: int := 2

  datatype PaymentMethod = PaymentMethod(
    id: int,
    userId: int,
    kind: int,                       // the `type` field
    cardHolderName: Option<string>,
    cardNumberMasked: Option<string>,
    cardNumberLast4: Option<string>,
    expiryMonth: Option<string>,
    expiryYear: Option<string>,
    payPalEmail: Option<string>,
    isDefault: bool,
    createdAt: string)

  /** The add/update request; every field but `type` is optional (None = not set). */
  datatype AddPaymentMethodRequest = AddPaymentMethodRequest(
    kind: int,
    cardHolderName: Option<string>,
    cardNumber: Option<string>,
    expiryMonth: Option<string>,
    expiryYear: Option<string>,
    cvv: Option<string>,
    payPalEmail: Option<string>)

  /** The body of `GET /payment-methods`; `value` may be missing. */
  datatype PaymentMethodsResponse = PaymentMethodsResponse(value: Option<seq<PaymentMethod>>, count: int)

  /** `getPaymentMethods`: the `value` list, or `[]` when the response has none; failures propagate. */
  function GetPaymentMethods(reply: Outcome<PaymentMethodsResponse>): (r: Outcome<seq<PaymentMethod>>)
    ensures reply.Rejected? ==> r == Rejected(reply.error)
    ensures reply.Resolved? && reply.value.value.None? ==> r == Resolved([])
    ensures reply.Resolved? && reply.value.value.Some? ==> r == Resolved(reply.value.value.value)
  {
    match reply
    case Rejected(e) => Rejected(e)
    case Resolved(response) =>
      match response.value
      case Some(methods) => Resolved(methods)
      case None => Resolved([])
  }

  const UnknownLabel: string := "Unknown"

  /** `getTypeLabel` */
  function TypeLabel(kind: int): (r: string)
    ensures r == UnknownLabel <==> !(CreditCard <= kind <= PayPal)
  {
    if kind == CreditCard then "Credit Card"
    else if kind == DebitCard then "Debit Card"
    else if kind == PayPal then "PayPal"
    else UnknownLabel
  }

  /** `getTypeIcon` */
  function TypeIcon(kind: int): string {
    if kind == CreditCard then "\U{1F4B3}"
    else if kind == DebitCard then "\U{1F4B3}"
    else if kind == PayPal then "\U{1F17F}\U{FE0F}"
    else "\U{1F4B0}"
  }

  /** The three known types have three different labels, so a label names its type. */
  lemma TypeLabelNamesType(a: int, b: int)
    requires CreditCard <= a <= PayPal && CreditCard <= b <= PayPal
    requires TypeLabel(a) == TypeLabel(b)
    ensures a == b
  {
  }

  /** The label table, entry by entry. */
  lemma TypeLabelTable()
    ensures TypeLabel(CreditCard) == "Credit Card"
    ensures TypeLabel(DebitCard) == "Debit Card"
    ensures TypeLabel(PayPal) == "PayPal"
  {
  }

  /** Both card types share an icon; PayPal has its own, and every other value the default. */
  lemma TypeIconClasses(other: int)
    requires !(CreditCard <= other <= PayPal)
    ensures TypeIcon(CreditCard) == TypeIcon(DebitCard)
    ensures TypeIcon(PayPal) != TypeIcon(CreditCard)
    ensures TypeIcon(other) != TypeIcon(CreditCard) && TypeIcon(other) != TypeIcon(PayPal)
    ensures TypeIcon(other) == TypeIcon(-1)
  {
  }
}

=== FILE: payment_methods_page.dfy ===
/**
 * The saved-payment-methods page (src/pages/PaymentMethodsPage.tsx): the
 * digit sanitisers of the card inputs, the expiry choices, the request
 * built for each payment type, and the handlers around the list.
 */
module PaymentMethodsPage {

  import opened Common
  import opened Text
  import opened Browser
  import opened PaymentMethodService
  import AuthService

  // ---------------------------------------------------------------------
  // Input sanitisers: `value.replace(/\D/g, '').slice(0, n)`.

  /** The card-number input: digits only, at most sixteen. */
  function SanitizeCardNumber(raw: string): (r: string)
    ensures AllDigits(r) && |r| <= 16
    ensures r <= KeepDigits(raw)
    ensures |KeepDigits(raw)| <= 16 ==> r == KeepDigits(raw)
  {
    Take(KeepDigits(raw), 16)
  }

  /** The CVV input: digits only, at most four. */
  function SanitizeCvv(raw: string): (r: string)
    ensures AllDigits(r) && |r| <= 4
    ensures r <= KeepDigits(raw)
    ensures |KeepDigits(raw)| <= 4 ==> r == KeepDigits(raw)
  {
    Take(KeepDigits(raw), 4)
  }

  lemma TakeOfDigitsIsFixed(s: string, n: nat)
    requires AllDigits(s) && |s| <= n
    ensures Take(KeepDigits(s), n) == s
  {
    KeepDigitsOfDigits(s);
  }

  /** Sanitising what the input already shows changes nothing. */
  lemma SanitizersIdempotent(raw: string)
    ensures SanitizeCardNumber(SanitizeCardNumber(raw)) == SanitizeCardNumber(raw)
    ensures SanitizeCvv(SanitizeCvv(raw)) == SanitizeCvv(raw)
  {
    TakeOfDigitsIsFixed(SanitizeCardNumber(raw), 16);
    TakeOfDigitsIsFixed(SanitizeCvv(raw), 4);
  }

  /** Typing separators between the digits does not change the number kept. */
  lemma SeparatorsIgnored(a: string, sep: string, b: string)
    requires forall i :: 0 <= i < |sep| ==> !IsDigit(sep[i])
    ensures SanitizeCardNumber(a + sep + b) == SanitizeCardNumber(a + b)
    ensures SanitizeCvv(a + sep + b) == SanitizeCvv(a + b)
  {
    KeepDigitsAppend(a + sep, b);
    KeepDigitsAppend(a, sep);
    KeepDigitsAppend(a, b);
    KeepDigitsOfNonDigits(sep);
  }

  // ---------------------------------------------------------------------
  // Expiry choices.

  /** The twelve month options, `String(i + 1).padStart(2, '0')`. */
  function ExpiryMonthOptions(): (r: seq<string>)
    ensures |r| == 12
    ensures forall i :: 0 <= i < 12 ==> |r[i]| == 2 && AllDigits(r[i]) && DigitsValue(r[i]) == i + 1
  {
    seq(12, i requires 0 <= i < 12 => PadTwo(i + 1))
  }

  /** The months read '01' to '12', all different. */
  lemma ExpiryMonthsDistinct()
    ensures forall i, j :: 0 <= i < j < 12 ==> ExpiryMonthOptions()[i] != ExpiryMonthOptions()[j]
    ensures ExpiryMonthOptions()[0] == "01" && ExpiryMonthOptions()[11] == "12"
  {
    var r := ExpiryMonthOptions();
    assert r[0] == PadTwo(1);
    assert r[11] == PadTwo(12);
  }

  /** The ten year options, from the current year, which the caller reads from the clock. */
  function ExpiryYearOptions(currentYear: int): (r: seq<string>)
    ensures |r| == 10
  {
    seq(10, i requires 0 <= i < 10 => IntToString(currentYear + i))
  }

  /** The year options read back as ten consecutive years, the current one first. */
  lemma ExpiryYearOptionsRead(currentYear: int)
    ensures forall i :: 0 <= i < 10 ==> ParseInt(ExpiryYearOptions(currentYear)[i]) == Some(currentYear + i)
  {
    var r := ExpiryYearOptions(currentYear);
    forall i | 0 <= i < 10
      ensures ParseInt(r[i]) == Some(currentYear + i)
    {
      IntToStringRoundTrip(currentYear + i);
    }
  }

  // ---------------------------------------------------------------------
  // The add form.

  datatype PaymentForm = PaymentForm(
    cardHolderName: string,
    cardNumber: string,
    expiryMonth: string,
    expiryYear: string,
    cvv: string,
    payPalEmail: string)

  const EmptyForm: PaymentForm := PaymentForm("", "", "", "", "", "")

  datatype PaymentField = CardHolderNameField | CardNumberField | ExpiryMonthField
                        | ExpiryYearField | CvvField | PayPalEmailField

  /** The `onChange` of each input: card number and CVV are sanitised, the others taken as typed. */
  function Edited(form: PaymentForm, field: PaymentField, raw: string): PaymentForm {
    match field
    case CardHolderNameField => form.(cardHolderName := raw)
    case CardNumberField => form.(cardNumber := SanitizeCardNumber(raw))
    case ExpiryMonthField => form.(expiryMonth := raw)
    case ExpiryYearField => form.(expiryYear := raw)
    case CvvField => form.(cvv := SanitizeCvv(raw))
    case PayPalEmailField => form.(payPalEmail := raw)
  }

  /** What the inputs let the form hold: a card number of at most 16 digits and a CVV of at most 4. */
  predicate WellFormed(form: PaymentForm) {
    AllDigits(form.cardNumber) && |form.cardNumber| <= 16 && AllDigits(form.cvv) && |form.cvv| <= 4
  }

  /** Whatever is typed into whichever input, the form stays well formed. */
  lemma EditKeepsWellFormed(form: PaymentForm, field: PaymentField, raw: string)
    requires WellFormed(form)
    ensures WellFormed(Edited(form, field, raw))
    ensures WellFormed(EmptyForm)
  {
  }

  /**
   * The request of `handleAddPaymentMethod`, assembled field by field: a
   * PayPal method carries only its email, any other type the five card
   * fields.
   */
  method BuildRequest(formType: int, form: PaymentForm) returns (request: AddPaymentMethodRequest)
    ensures request.kind == formType
    ensures formType == PayPal ==>
      request.payPalEmail == Some(form.payPalEmail)
      && request.cardHolderName.None? && request.cardNumber.None? && request.expiryMonth.None?
      && request.expiryYear.None? && request.cvv.None?
    ensures formType != PayPal ==>
      request.cardHolderName == Some(form.cardHolderName) && request.cardNumber == Some(form.cardNumber)
      && request.expiryMonth == Some(form.expiryMonth) && request.expiryYear == Some(form.expiryYear)
      && request.cvv == Some(form.cvv) && request.payPalEmail.None?
  {
    request := AddPaymentMethodRequest(formType, None, None, None, None, None, None);
    if formType == PayPal {
      request := request.(payPalEmail := Some(form.payPalEmail));
    } else {
      request := request.(cardHolderName := Some(form.cardHolderName));
      request := request.(cardNumber := Some(form.cardNumber));
      request := request.(expiryMonth := Some(form.expiryMonth));
      request := request.(expiryYear := Some(form.expiryYear));
      request := request.(cvv := Some(form.cvv));
    }
  }

  // ---------------------------------------------------------------------
  // Page state.

  const LoadFailed: string := "Failed to load payment methods"
  const AddFailed: string := "Failed to add payment method. Please check your details."

  class PaymentMethodsView {
    var methods: seq<PaymentMethod>
    var loading: bool
    var error: Option<string>
    var deletingId: Option<int>
    var settingDefaultId: Option<int>
    var showAddForm: bool
    var formType: int
    var formData: PaymentForm
    var submitting: bool
    var formError: Option<string>
    /** The route `navigate` was last called with, if any. */
    var navigatedTo: Option<string>

    constructor ()
      ensures methods == [] && loading && error.None? && deletingId.None? && settingDefaultId.None?
      ensures !showAddForm && formType == CreditCard && formData == EmptyForm
      ensures !submitting && formError.None? && navigatedTo.None?
    {
      methods, loading, error, deletingId, settingDefaultId := [], true, None, None, None;
      showAddForm, formType, formData, submitting, formError := false, CreditCard, EmptyForm, false, None;
      navigatedTo := None;
    }

    /** `loadPaymentMethods`; `reply` is what `getPaymentMethods` produced. */
    method LoadPaymentMethods(reply: Outcome<seq<PaymentMethod>>)
      modifies this`methods, this`loading, this`error
      ensures !loading
      ensures reply.Resolved? ==> methods == reply.value && error.None?
      ensures reply.Rejected? ==> methods == old(methods) && error == Some(LoadFailed)
    {
      loading := true;
      error := None;
      match reply {
        case Resolved(data) => methods := data;
        case Rejected(_) => error := Some(LoadFailed);
      }
      loading := false;
    }

    /** The mount effect: an anonymous visitor is sent to `/login` and nothing is loaded. */
    method Mount(w: Window, reply: Outcome<seq<PaymentMethod>>) returns (loaded: bool)
      modifies this`methods, this`loading, this`error, this`navigatedTo
      ensures loaded <==> AuthService.IsAuthenticated(w.localStorage)
      ensures !loaded ==>
        navigatedTo == Some("/login") && methods == old(methods) && loading == old(loading) && error == old(error)
      ensures loaded ==> navigatedTo == old(navigatedTo) && !loading
      ensures loaded && reply.Resolved? ==> methods == reply.value && error.None?
      ensures loaded && reply.Rejected? ==> methods == old(methods) && error == Some(LoadFailed)
    {
      if !AuthService.IsAuthenticated(w.localStorage) {
        navigatedTo := Some("/login");
        return false;
      }
      LoadPaymentMethods(reply);
      loaded := true;
    }

    /**
     * `handleDelete`: nothing happens unless the confirm dialog was
     * accepted; a failed delete only raises an alert.
     */
    method Delete(id: int, confirmed: bool, reply: Outcome<()>, reload: Outcome<seq<PaymentMethod>>)
      returns (called: bool, reloaded: bool)
      modifies this`deletingId, this`methods, this`loading, this`error
      ensures called <==> confirmed
      ensures reloaded <==> confirmed && reply.Resolved?
      ensures !reloaded ==> methods == old(methods) && error == old(error) && loading == old(loading)
      ensures reloaded ==> !loading
      ensures reloaded && reload.Resolved? ==> methods == reload.value && error.None?
      ensures reloaded && reload.Rejected? ==> methods == old(methods) && error == Some(LoadFailed)
      ensures confirmed ==> deletingId.None?
      ensures !confirmed ==> deletingId == old(deletingId)
    {
      reloaded := false;
      if !confirmed {
        return false, false;
      }
      called := true;
      deletingId := Some(id);
      if reply.Resolved? {
        LoadPaymentMethods(reload);
        reloaded := true;
      }
      deletingId := None;
    }

    /** `handleSetDefault`: a failure only raises an alert. */
    method SetDefault(id: int, reply: Outcome<()>, reload: Outcome<seq<PaymentMethod>>) returns (reloaded: bool)
      modifies this`settingDefaultId, this`methods, this`loading, this`error
      ensures reloaded <==> reply.Resolved?
      ensures !reloaded ==> methods == old(methods) && error == old(error) && loading == old(loading)
      ensures reloaded ==> !loading
      ensures reloaded && reload.Resolved? ==> methods == reload.value && error.None?
      ensures reloaded && reload.Rejected? ==> methods == old(methods) && error == Some(LoadFailed)
      ensures settingDefaultId.None?
    {
      settingDefaultId := Some(id);
      reloaded := reply.Resolved?;
      if reloaded {
        LoadPaymentMethods(reload);
      }
      settingDefaultId := None;
    }

    /** A type button of the add form. */
    method ChooseType(kind: int)
      modifies this`formType
      ensures formType == kind
    {
      formType := kind;
    }

    /** An input of the add form. */
    method Edit(field: PaymentField, raw: string)
      modifies this`formData
      ensures formData == Edited(old(formData), field, raw)
      ensures WellFormed(old(formData)) ==> WellFormed(formData)
    {
      if WellFormed(formData) {
        EditKeepsWellFormed(formData, field, raw);
      }
      formData := Edited(formData, field, raw);
    }

    /** The "Add Payment Method" button. */
    method OpenAddForm()
      modifies this`showAddForm
      ensures showAddForm
    {
      showAddForm := true;
    }

    /**
     * `handleAddPaymentMethod`. After the server accepted the request the
     * six fields are emptied, the form hidden and the list reloaded; after
     * a failure the form stays as it was, with an error.
     */
    method AddPaymentMethod(reply: Outcome<()>, reload: Outcome<seq<PaymentMethod>>)
      returns (request: AddPaymentMethodRequest)
      modifies this`submitting, this`formError, this`formData, this`showAddForm
      modifies this`methods, this`loading, this`error
      ensures request.kind == old(formType)
      ensures old(formType) == PayPal ==>
        request.payPalEmail == Some(old(formData).payPalEmail)
        && request.cardHolderName.None? && request.cardNumber.None? && request.expiryMonth.None?
        && request.expiryYear.None? && request.cvv.None?
      ensures old(formType) != PayPal ==>
        request.cardHolderName == Some(old(formData).cardHolderName)
        && request.cardNumber == Some(old(formData).cardNumber)
        && request.expiryMonth == Some(old(formData).expiryMonth)
        && request.expiryYear == Some(old(formData).expiryYear)
        && request.cvv == Some(old(formData).cvv) && request.payPalEmail.None?
      ensures reply.Resolved? ==> formData == EmptyForm && !showAddForm && formError.None? && !loading
      ensures reply.Resolved? && reload.Resolved? ==> methods == reload.value && error.None?
      ensures reply.Resolved? && reload.Rejected? ==> methods == old(methods) && error == Some(LoadFailed)
      ensures reply.Rejected? ==>
        formData == old(formData) && showAddForm == old(showAddForm) && formError == Some(AddFailed)
        && methods == old(methods) && error == old(error) && loading == old(loading)
      ensures !submitting
    {
      submitting := true;
      formError := None;
      request := BuildRequest(formType, formData);
      if reply.Resolved? {
        formData := EmptyForm;
        showAddForm := false;
        LoadPaymentMethods(reload);
      } else {
        formError := Some(AddFailed);
      }
      submitting := false;
    }

    /** `resetForm`, the Cancel button: hides and empties the form and clears its error. */
    method ResetForm()
      modifies this`showAddForm, this`formError, this`formData
      ensures formData == EmptyForm && !showAddForm && formError.None?
    {
      showAddForm := false;
      formError := None;
      formData := EmptyForm;
    }
  }
}

=== FILE: product_card.dfy ===
/**
 * The stock classification and author line of a product tile
 * (src/components/ProductCard.tsx). The product detail page classifies
 * stock with the same two predicates.
 */
module ProductCard {

  import opened Common
  import opened Types

  /** `stockQuantity === 0` */
  predicate IsOutOfStock(p: Product) {
    p.stockQuantity == 0
  }

  /** `stockQuantity > 0 && stockQuantity <= lowStockThreshold` */
  predicate IsLowStock(p: Product) {
    p.stockQuantity > 0 && p.stockQuantity <= p.lowStockThreshold
  }

  const OutOfStockLabel: string := "Out of Stock"
  const LowStockLabel: string := "Low Stock"
  const InStockLabel: string := "In Stock"

  /** The stock badge: out of stock takes precedence over low stock. */
  function StockLabel(p: Product): (r: string)
    ensures r == OutOfStockLabel <==> p.stockQuantity == 0
    ensures r == LowStockLabel <==> 0 < p.stockQuantity <= p.lowStockThreshold
    ensures r == InStockLabel <==> p.stockQuantity < 0 || (p.stockQuantity > 0 && p.stockQuantity > p.lowStockThreshold)
  {
    if IsOutOfStock(p) then OutOfStockLabel
    else if IsLowStock(p) then LowStockLabel
    else InStockLabel
  }

  /** `product.author || 'Unknown Author'` */
  function AuthorLine(p: Product): (r: string)
    ensures Truthy(p.author) ==> r == p.author.value
    ensures !Truthy(p.author) ==> r == "Unknown Author"
  {
    if Truthy(p.author) then p.author.value else "Unknown Author"
  }

  /** The two flags never hold together, and negative stock is neither. */
  lemma StockFlagsExclusive(p: Product)
    ensures !(IsOutOfStock(p) && IsLowStock(p))
    ensures p.stockQuantity < 0 ==> !IsOutOfStock(p) && !IsLowStock(p) && StockLabel(p) == InStockLabel
  {
  }
}

=== FILE: product_detail_page.dfy ===
/**
 * The product page (src/pages/ProductDetailPage.tsx): the stock message,
 * the quantity choices, and the handlers that load the product, toggle
 * the wishlist, add to the cart and submit a review.
 */
module ProductDetailPage {

  import opened Common
  import opened Text
  import opened Types
  import opened Browser
  import opened Api
  import ProductCard

  // ---------------------------------------------------------------------
  // Stock display.

  const OutOfStockMessage: string := "\U{274C} Out of Stock"
  const LowStockOpening: string := "\U{26A0}\U{FE0F} Only "
  const InStockOpening: string := "\U{2705} In Stock ("

  /** The stock line under the price. */
  function StockMessage(p: Product): string {
    if ProductCard.IsOutOfStock(p) then OutOfStockMessage
    else if ProductCard.IsLowStock(p) then LowStockOpening + IntToString(p.stockQuantity) + " left!"
    else InStockOpening + IntToString(p.stockQuantity) + " available)"
  }

  lemma PrefixOfConcat(a: string, b: string, c: string)
    ensures StartsWith(a + b + c, a)
  {
    assert (a + b + c)[..|a|] == a;
  }

  /** Strings whose first characters differ do not start one with the other. */
  lemma FirstCharDiffers(s: string, p: string)
    requires s != [] && p != [] && s[0] != p[0]
    ensures !StartsWith(s, p)
  {
    if |p| <= |s| {
      assert s[..|p|][0] == s[0];
    }
  }

  /** `a + n + c` ends with `n + c`. */
  lemma EndsWithTail(a: string, n: string, c: string)
    ensures (a + n + c)[|a + n + c| - |n| - |c|..] == n + c
  {
  }

  /**
   * The page classifies stock exactly as the product card does, and the
   * low-stock and in-stock messages carry the count.
   */
  lemma StockMessageAgreesWithCard(p: Product)
    ensures ProductCard.StockLabel(p) == ProductCard.OutOfStockLabel <==> StockMessage(p) == OutOfStockMessage
    ensures ProductCard.StockLabel(p) == ProductCard.LowStockLabel <==> StartsWith(StockMessage(p), LowStockOpening)
    ensures ProductCard.StockLabel(p) == ProductCard.InStockLabel <==> StartsWith(StockMessage(p), InStockOpening)
    ensures !ProductCard.IsOutOfStock(p) ==>
      StockMessage(p)[|StockMessage(p)| - |IntToString(p.stockQuantity)| - 6..] == IntToString(p.stockQuantity) + " left!"
      || StockMessage(p)[|StockMessage(p)| - |IntToString(p.stockQuantity)| - 11..] == IntToString(p.stockQuantity) + " available)"
  {
    var n := IntToString(p.stockQuantity);
    if ProductCard.IsOutOfStock(p) {
      FirstCharDiffers(OutOfStockMessage, LowStockOpening);
      FirstCharDiffers(OutOfStockMessage, InStockOpening);
    } else if ProductCard.IsLowStock(p) {
      PrefixOfConcat(LowStockOpening, n, " left!");
      FirstCharDiffers(LowStockOpening + n + " left!", InStockOpening);
      EndsWithTail(LowStockOpening, n, " left!");
    } else {
      PrefixOfConcat(InStockOpening, n, " available)");
      FirstCharDiffers(InStockOpening + n + " available)", LowStockOpening);
      EndsWithTail(InStockOpening, n, " available)");
    }
  }

  // ---------------------------------------------------------------------
  // Quantity choices: `[...Array(Math.min(10, stockQuantity))]`.

  /** The numbers 1..n in order. */
  function OneTo(n: nat): (r: seq<int>)
    ensures |r| == n
    ensures forall i :: 0 <= i < n ==> r[i] == i + 1
  {
    if n == 0 then [] else OneTo(n - 1) + [n]
  }

  /**
   * The options of the quantity select. `Array(k)` throws a RangeError
   * for a negative length, so negative stock renders no options at all:
   * None stands for that error.
   */
  function QuantityOptions(stock: int): (r: Option<seq<int>>)
    ensures r.None? <==> stock < 0
    ensures r.Some? ==> |r.value| == (if stock < 10 then stock else 10)
  {
    if stock < 0 then None
    else Some(OneTo(if stock < 10 then stock else 10))
  }

  /** Every option is a quantity between 1 and min(10, stock), each exactly once, in order. */
  lemma QuantityOptionsRange(stock: int)
    requires stock >= 0
    ensures forall i :: 0 <= i < |QuantityOptions(stock).value| ==>
      QuantityOptions(stock).value[i] == i + 1 && 1 <= QuantityOptions(stock).value[i] <= stock
      && QuantityOptions(stock).value[i] <= 10
    ensures stock == 0 <==> QuantityOptions(stock) == Some([])
    ensures stock >= 1 ==> 1 in QuantityOptions(stock).value
  {
    var r := QuantityOptions(stock).value;
    if stock >= 1 {
      assert r[0] == 1;
    }
  }

  // ---------------------------------------------------------------------
  // Wishlist calls.

  datatype WishlistCall = AddToWishlist(productId: int) | RemoveFromWishlist(productId: int)

  /** The endpoint each wishlist call goes to. */
  function WishlistUrl(call: WishlistCall): string {
    "/Wishlist/items/" + IntToString(call.productId)
  }

  /** `/Wishlist/check/{id}`, the membership query. */
  function WishlistCheckUrl(productId: int): string {
    "/Wishlist/check/" + IntToString(productId)
  }

  /** A 401 from any wishlist call never ends the session. */
  lemma WishlistFailuresKeepSession(call: WishlistCall, productId: int)
    ensures ShouldSkipRedirect(WishlistUrl(call))
    ensures ShouldSkipRedirect(WishlistCheckUrl(productId))
  {
    var item, check := WishlistUrl(call), WishlistCheckUrl(productId);
    ShouldSkipRedirectIff(item);
    ShouldSkipRedirectIff(check);
    assert item[..9] == "/Wishlist";
    assert check[..9] == "/Wishlist";
  }

  /** A 401 from the review endpoint does end the session: `/Reviews` is not a prefix of it. */
  lemma ReviewFailureEndsSession(productId: int)
    ensures !ShouldSkipRedirect(ReviewsUrl(productId))
  {
    ReviewEndpointsNotExempt(productId, "");
    assert ReviewsUrl(productId) == "/products/" + IntToString(productId) + "/Reviews" + "";
  }

  /** `/products/{id}/Reviews`, where reviews are read and created. */
  function ReviewsUrl(productId: int): string {
    "/products/" + IntToString(productId) + "/Reviews"
  }

  // ---------------------------------------------------------------------
  // Page state.

  const LoadFailed: string := "Failed to load product details"
  const ReviewFallback: string := "Failed to submit review. You may have already reviewed this product."
  const DefaultRating: int := 5

  class ProductDetailView {
    var product: Option<Product>
    var reviews: seq<Review>
    var loading: bool
    var error: Option<string>
    var quantity: int
    var addingToCart: bool
    var addedToCart: bool
    var inWishlist: bool
    var showReviewForm: bool
    var reviewRating: int
    var reviewText: string
    var submittingReview: bool
    var reviewError: Option<string>

    constructor ()
      ensures product.None? && reviews == [] && loading && error.None?
      ensures quantity == 1 && !addingToCart && !addedToCart && !inWishlist
      ensures ReviewFormReset() && reviewError.None? && !submittingReview
    {
      product, reviews, loading, error := None, [], true, None;
      quantity, addingToCart, addedToCart, inWishlist := 1, false, false, false;
      showReviewForm, reviewRating, reviewText := false, DefaultRating, "";
      submittingReview, reviewError := false, None;
    }

    /** The review form is hidden, empty and back at five stars. */
    predicate ReviewFormReset()
      reads this
    {
      !showReviewForm && reviewText == "" && reviewRating == DefaultRating
    }

    /**
     * `loadProduct`. `productReply` and `reviewsReply` are the outcomes of
     * the two parallel reads; `wishlistReply` that of the membership query,
     * which is only made when a token is stored. The token is read after
     * both reads settled, so `w` is the browser as the response interceptor
     * left it after them: a 401 on the reviews read has already cleared the
     * session, and then no membership query is made.
     */
    method LoadProduct(w: Window, productReply: Outcome<Product>, reviewsReply: Outcome<seq<Review>>,
                       wishlistReply: Outcome<bool>)
      returns (checkedWishlist: bool)
      modifies this`product, this`reviews, this`loading, this`error, this`inWishlist
      ensures !loading
      ensures productReply.Resolved? ==> product == Some(productReply.value) && error.None?
      ensures productReply.Resolved? && reviewsReply.Resolved? ==> reviews == reviewsReply.value
      ensures productReply.Resolved? && reviewsReply.Rejected? ==> reviews == []
      ensures productReply.Rejected? ==>
        product == old(product) && reviews == old(reviews) && error == Some(LoadFailed)
      ensures checkedWishlist <==> productReply.Resolved? && StoredToken(w.localStorage).Some?
      ensures checkedWishlist && wishlistReply.Resolved? ==> inWishlist == wishlistReply.value
      ensures !(checkedWishlist && wishlistReply.Resolved?) ==> inWishlist == old(inWishlist)
    {
      if productReply.Rejected? {
        loading, error := false, Some(LoadFailed);
        return false;
      }
      checkedWishlist := StoredToken(w.localStorage).Some?;
      var shown := if reviewsReply.Resolved? then reviewsReply.value else [];
      var listed := if checkedWishlist && wishlistReply.Resolved? then wishlistReply.value else inWishlist;
      loading, error, product, reviews, inWishlist := false, None, Some(productReply.value), shown, listed;
    }

    /**
     * `handleAddToCart`: sends the shown product with the chosen quantity.
     * A failed add only raises an alert.
     */
    method AddToCart(reply: Outcome<Cart>) returns (request: Option<AddToCartRequest>)
      modifies this`addingToCart, this`addedToCart
      ensures old(product).None? ==> request.None? && addedToCart == old(addedToCart)
      ensures old(product).Some? ==> request == Some(AddToCartRequest(old(product).value.id, old(quantity)))
      ensures old(product).Some? && reply.Resolved? ==> addedToCart
      ensures reply.Rejected? ==> addedToCart == old(addedToCart)
      ensures addingToCart == (old(product).None? && old(addingToCart))
    {
      if product.None? {
        return None;
      }
      addingToCart := true;
      request := Some(AddToCartRequest(product.value.id, quantity));
      if reply.Resolved? {
        addedToCart := true;
      }
      addingToCart := false;
    }

    /** The three-second timer after a successful add hides the notice again. */
    method AddedNoticeExpired()
      modifies this`addedToCart
      ensures !addedToCart
    {
      addedToCart := false;
    }

    /** `handleToggleWishlist`: the flag flips only once the server has agreed. */
    method ToggleWishlist(reply: Outcome<()>) returns (call: Option<WishlistCall>)
      modifies this`inWishlist
      ensures old(product).None? ==> call.None?
      ensures old(product).Some? ==> call == Some(
        if old(inWishlist) then RemoveFromWishlist(old(product).value.id) else AddToWishlist(old(product).value.id))
      ensures old(product).Some? && reply.Resolved? ==> inWishlist == !old(inWishlist)
      ensures old(product).None? || reply.Rejected? ==> inWishlist == old(inWishlist)
    {
      if product.None? {
        return None;
      }
      var id := product.value.id;
      if inWishlist {
        call := Some(RemoveFromWishlist(id));
        if reply.Resolved? {
          inWishlist := false;
        }
      } else {
        call := Some(AddToWishlist(id));
        if reply.Resolved? {
          inWishlist := true;
        }
      }
    }

    /** The "Write a Review" button, shown only to a signed-in visitor while the form is hidden. */
    method OpenReviewForm(w: Window)
      modifies this`showReviewForm
      ensures showReviewForm == (old(showReviewForm) || StoredToken(w.localStorage).Some?)
    {
      if StoredToken(w.localStorage).Some? && !showReviewForm {
        showReviewForm := true;
      }
    }

    /** A click on one of the five stars of the form. */
    method SelectRating(star: int)
      requires 1 <= star <= 5
      modifies this`reviewRating
      ensures reviewRating == star
    {
      reviewRating := star;
    }

    /** The form's Cancel button: hides and empties the form and clears its error. */
    method CancelReview()
      modifies this`showReviewForm, this`reviewError, this`reviewText, this`reviewRating
      ensures ReviewFormReset() && reviewError.None?
    {
      showReviewForm := false;
      reviewError := None;
      reviewText := "";
      reviewRating := DefaultRating;
    }

    /** After the review was created: the form is reset and the product reloaded. */
    method ReviewCreated(w: Window, productReply: Outcome<Product>, reviewsReply: Outcome<seq<Review>>,
                         wishlistReply: Outcome<bool>)
      modifies this`reviewText, this`reviewRating, this`showReviewForm, this`reviewError, this`submittingReview
      modifies this`product, this`reviews, this`loading, this`error, this`inWishlist
      ensures ReviewFormReset() && reviewError.None? && !submittingReview && !loading
      ensures productReply.Resolved? ==>
        product == Some(productReply.value) && error.None?
        && reviews == (if reviewsReply.Resolved? then reviewsReply.value else [])
      ensures productReply.Rejected? ==>
        product == old(product) && reviews == old(reviews) && error == Some(LoadFailed)
      ensures inWishlist ==
        (if productReply.Resolved? && StoredToken(w.localStorage).Some? && wishlistReply.Resolved?
         then wishlistReply.value else old(inWishlist))
    {
      reviewText, reviewRating, showReviewForm := "", DefaultRating, false;
      reviewError, submittingReview := None, false;
      var _ := LoadProduct(w, productReply, reviewsReply, wishlistReply);
    }

    /** After the review was refused: the form stays as typed and shows why. */
    method ReviewRejected(error: Thrown)
      modifies this`reviewError, this`submittingReview
      ensures reviewError == Some(MessageOr(error, ReviewFallback)) && !submittingReview
    {
      reviewError, submittingReview := Some(MessageOr(error, ReviewFallback)), false;
    }

    /** What the page does once the review request was answered. */
    method ReviewAnswered(w: Window, reply: Outcome<Review>, productReply: Outcome<Product>,
                          reviewsReply: Outcome<seq<Review>>, wishlistReply: Outcome<bool>)
      modifies this`reviewText, this`reviewRating, this`showReviewForm, this`reviewError, this`submittingReview
      modifies this`product, this`reviews, this`loading, this`error, this`inWishlist
      ensures !submittingReview
      ensures reply.Resolved? ==> ReviewFormReset() && reviewError.None? && !loading
      ensures reply.Resolved? && productReply.Resolved? ==>
        product == Some(productReply.value) && error.None?
        && reviews == (if reviewsReply.Resolved? then reviewsReply.value else [])
        && inWishlist == (if StoredToken(w.localStorage).Some? && wishlistReply.Resolved?
                          then wishlistReply.value else old(inWishlist))
      ensures reply.Resolved? && productReply.Rejected? ==>
        product == old(product) && reviews == old(reviews) && error == Some(LoadFailed)
        && inWishlist == old(inWishlist)
      ensures reply.Rejected? ==>
        reviewError == Some(MessageOr(reply.error, ReviewFallback))
        && reviewText == old(reviewText) && reviewRating == old(reviewRating)
        && showReviewForm == old(showReviewForm)
        && product == old(product) && reviews == old(reviews) && loading == old(loading)
        && error == old(error) && inWishlist == old(inWishlist)
    {
      if reply.Resolved? {
        ReviewCreated(w, productReply, reviewsReply, wishlistReply);
      } else {
        ReviewRejected(reply.error);
      }
    }

    /**
     * `handleSubmitReview`. `posted` is the URL the review is posted to and
     * `request` its body; `reply` is the outcome of creating the review.
     * After a success the page reloads the product with the three reload
     * outcomes.
     */
    method SubmitReview(w: Window, reply: Outcome<Review>, productReply: Outcome<Product>,
                        reviewsReply: Outcome<seq<Review>>, wishlistReply: Outcome<bool>)
      returns (posted: Option<string>, request: Option<CreateReviewRequest>)
      modifies this`reviewText, this`reviewRating, this`showReviewForm, this`reviewError, this`submittingReview
      modifies this`product, this`reviews, this`loading, this`error, this`inWishlist
      ensures request.Some? <==> old(product).Some? && Trim(old(reviewText)) != ""
      ensures posted == (if request.Some? then Some(ReviewsUrl(old(product).value.id)) else None)
      ensures request.Some? ==>
        request.value == CreateReviewRequest(old(reviewRating), Some(Trim(old(reviewText))))
      ensures request.None? ==>
        reviewText == old(reviewText) && reviewRating == old(reviewRating)
        && showReviewForm == old(showReviewForm) && reviewError == old(reviewError)
        && submittingReview == old(submittingReview)
      ensures request.Some? ==> !submittingReview
      ensures request.Some? && reply.Resolved? ==> ReviewFormReset() && reviewError.None? && !loading
      ensures request.Some? && reply.Resolved? && productReply.Resolved? ==>
        product == Some(productReply.value) && error.None?
        && reviews == (if reviewsReply.Resolved? then reviewsReply.value else [])
        && inWishlist == (if StoredToken(w.localStorage).Some? && wishlistReply.Resolved?
                          then wishlistReply.value else old(inWishlist))
      ensures request.Some? && reply.Resolved? && productReply.Rejected? ==>
        product == old(product) && reviews == old(reviews) && error == Some(LoadFailed)
        && inWishlist == old(inWishlist)
      ensures request.Some? && reply.Rejected? ==>
        reviewError == Some(MessageOr(reply.error, ReviewFallback))
        && reviewText == old(reviewText) && reviewRating == old(reviewRating)
        && showReviewForm == old(showReviewForm)
      ensures request.None? || reply.Rejected? ==>
        product == old(product) && reviews == old(reviews) && loading == old(loading)
        && error == old(error) && inWishlist == old(inWishlist)
    {
      var trimmed := Trim(reviewText);
      if product.None? || trimmed == "" {
        return None, None;
      }
      posted := Some(ReviewsUrl(product.value.id));
      request := Some(CreateReviewRequest(reviewRating, Some(trimmed)));
      ReviewAnswered(w, reply, productReply, reviewsReply, wishlistReply);
    }
  }
}

=== FILE: products_page.dfy ===
/**
 * The catalogue page (src/pages/ProductsPage.tsx): the filter state, the
 * search parameters it sends, the genre list it extracts from the loaded
 * products, and the results line.
 */
module ProductsPage {

  import opened Common
  import opened Text
  import opened Types

  datatype SortOrder = Asc | Desc

  /** `ProductSearchParams`; None = the parameter is not sent. */
  datatype ProductSearchParams = ProductSearchParams(
    searchTerm: Option<string>,
    genre: Option<string>,
    author: Option<string>,
    minPrice: Option<real>,
    maxPrice: Option<real>,
    sortBy: Option<string>,
    sortOrder: Option<SortOrder>)

  /** The parameters `loadProducts` sends: empty filters become undefined, sorting is always sent. */
  function SearchParams(searchTerm: string, genre: string, sortBy: string, sortOrder: SortOrder): (r: ProductSearchParams)
    ensures r.searchTerm == EmptyToNull(searchTerm) && r.genre == EmptyToNull(genre)
    ensures r.sortBy == Some(sortBy) && r.sortOrder == Some(sortOrder)
    ensures r.author.None? && r.minPrice.None? && r.maxPrice.None?
  {
    ProductSearchParams(EmptyToNull(searchTerm), EmptyToNull(genre), None, None, None, Some(sortBy), Some(sortOrder))
  }

  // ---------------------------------------------------------------------
  // Genres: `[...new Set(data.map(p => p.genre).filter(Boolean))]`.

  /** `data.map(p => p.genre).filter(Boolean)`: the non-empty genres, in order. */
  function Genres(products: seq<Product>): (g: seq<string>)
    ensures forall x :: x in g <==> exists i :: 0 <= i < |products| && products[i].genre == Some(x) && x != ""
  {
    if products == [] then []
    else
      var rest := Genres(products[1..]);
      var head := if Truthy(products[0].genre) then [products[0].genre.value] else [];
      assert forall i :: 1 <= i < |products| ==> products[i] == products[1..][i - 1];
      head + rest
  }

  /** The genres of one product: its genre when it is truthy. */
  lemma GenresOfOne(p: Product)
    ensures Genres([p]) == if Truthy(p.genre) then [p.genre.value] else []
  {
    assert [p][1..] == [];
  }

  /** Genres are listed product by product, in the products' order. */
  lemma {:induction false} GenresAppend(a: seq<Product>, b: seq<Product>)
    ensures Genres(a + b) == Genres(a) + Genres(b)
  {
    if a == [] {
      assert a + b == b;
    } else {
      assert (a + b)[1..] == a[1..] + b;
      GenresAppend(a[1..], b);
    }
  }

  predicate NoDuplicates(s: seq<string>) {
    forall i, j :: 0 <= i < j < |s| ==> s[i] != s[j]
  }

  /** Spreading a `Set` built from `s`: each value once, where it first occurs. */
  function Distinct(s: seq<string>): (r: seq<string>)
    ensures NoDuplicates(r)
    ensures forall x :: x in r <==> x in s
  {
    if s == [] then []
    else
      var r := Distinct(s[..|s| - 1]);
      var x := s[|s| - 1];
      assert s == s[..|s| - 1] + [x];
      if x in r then r else r + [x]
  }

  /** The genre options of the filter. */
  function UniqueGenres(products: seq<Product>): seq<string> {
    Distinct(Genres(products))
  }

  /** The index of the first occurrence of `x` in `s`. */
  function FirstIndex(s: seq<string>, x: string): (i: nat)
    requires x in s
    ensures i < |s| && s[i] == x
    ensures forall j :: 0 <= j < i ==> s[j] != x
  {
    if s[0] == x then 0 else 1 + FirstIndex(s[1..], x)
  }

  lemma FirstIndexOfPrefix(s: seq<string>, c: string, x: string)
    requires x in s
    ensures FirstIndex(s + [c], x) == FirstIndex(s, x)
  {
    var i, k := FirstIndex(s + [c], x), FirstIndex(s, x);
    assert (s + [c])[k] == x;
    assert i <= k;
    assert s[i] == (s + [c])[i];
  }

  /** The values of `Distinct(s)` appear in the order of their first occurrences in `s`. */
  lemma {:induction false} DistinctKeepsFirstOccurrenceOrder(s: seq<string>)
    ensures forall i, j :: 0 <= i < j < |Distinct(s)| ==>
      FirstIndex(s, Distinct(s)[i]) < FirstIndex(s, Distinct(s)[j])
  {
    if s != [] {
      var p, x := s[..|s| - 1], s[|s| - 1];
      assert s == p + [x];
      var r := Distinct(p);
      DistinctKeepsFirstOccurrenceOrder(p);
      forall y | y in r ensures FirstIndex(s, y) == FirstIndex(p, y) {
        FirstIndexOfPrefix(p, x, y);
      }
      if x !in r {
        assert x !in p;
        assert FirstIndex(s, x) == |p|;
        forall i | 0 <= i < |r| ensures FirstIndex(s, r[i]) < |p| {
          assert r[i] in p;
        }
      }
    }
  }

  /**
   * The genre filter lists every non-empty genre of the loaded products
   * exactly once, and nothing else, in order of first appearance.
   */
  lemma UniqueGenresSpec(products: seq<Product>)
    ensures NoDuplicates(UniqueGenres(products))
    ensures forall x :: x in UniqueGenres(products) <==>
      exists i :: 0 <= i < |products| && products[i].genre == Some(x) && x != ""
    ensures "" !in UniqueGenres(products)
    ensures forall i, j :: 0 <= i < j < |UniqueGenres(products)| ==>
      FirstIndex(Genres(products), UniqueGenres(products)[i]) < FirstIndex(Genres(products), UniqueGenres(products)[j])
  {
    DistinctKeepsFirstOccurrenceOrder(Genres(products));
  }

  /** `Showing N product(s)` */
  function ResultsCount(n: nat): (r: string)
    ensures r == "Showing " + NatToString(n) + " product" || r == "Showing " + NatToString(n) + " products"
  {
    "Showing " + NatToString(n) + " product" + (if n != 1 then "s" else "")
  }

  /** The singular is used for exactly one result. */
  lemma ResultsCountPlural(n: nat)
    ensures ResultsCount(n)[|ResultsCount(n)| - 1] == 's' <==> n != 1
  {
  }

  // ---------------------------------------------------------------------
  // Page state.

  const FailedToLoad: string := "Failed to load products"

  class ProductsView {
    var products: seq<Product>
    var loading: bool
    var error: Option<string>
    var searchTerm: string
    var selectedGenre: string
    var sortBy: string
    var sortOrder: SortOrder
    var genres: seq<string>

    /** The initial state of the page. */
    constructor ()
      ensures products == [] && loading && error.None? && genres == []
      ensures FiltersCleared()
    {
      products, loading, error := [], true, None;
      searchTerm, selectedGenre, sortBy, sortOrder := "", "", "name", Asc;
      genres := [];
    }

    predicate FiltersCleared()
      reads this
    {
      searchTerm == "" && selectedGenre == "" && sortBy == "name" && sortOrder == Asc
    }

    /**
     * `loadProducts`: sends the current filters; `reply` is the outcome of
     * `GET /Products`. On success the products and their genres replace the
     * old ones; on failure they are kept and the error is shown.
     */
    method LoadProducts(reply: Outcome<seq<Product>>) returns (params: ProductSearchParams)
      modifies this
      ensures params == SearchParams(searchTerm, selectedGenre, sortBy, sortOrder)
      ensures searchTerm == old(searchTerm) && selectedGenre == old(selectedGenre)
      ensures sortBy == old(sortBy) && sortOrder == old(sortOrder)
      ensures !loading
      ensures reply.Resolved? ==>
        products == reply.value && genres == UniqueGenres(reply.value) && error.None?
      ensures reply.Rejected? ==>
        products == old(products) && genres == old(genres) && error == Some(FailedToLoad)
    {
      loading := true;
      error := None;
      params := SearchParams(searchTerm, selectedGenre, sortBy, sortOrder);
      match reply {
        case Resolved(data) =>
          products := data;
          genres := UniqueGenres(data);
        case Rejected(_) =>
          error := Some(FailedToLoad);
      }
      loading := false;
    }

    /** `clearFilters`: back to ('', '', 'name', 'asc'); nothing else changes. */
    method ClearFilters()
      modifies this
      ensures FiltersCleared()
      ensures products == old(products) && genres == old(genres)
      ensures loading == old(loading) && error == old(error)
    {
      searchTerm := "";
      selectedGenre := "";
      sortBy := "name";
      sortOrder := Asc;
    }
  }

  /**
   * `clearFilters` followed by the load effect, which depends on the four
   * filters: the effect runs only when clearing changed one of them. Then
   * it asks for the whole catalogue sorted by name, ascending, and shows
   * what comes back; when the filters already read ('', '', 'name', 'asc')
   * no request is sent and nothing changes.
   */
  method ClearFiltersThenEffect(v: ProductsView, reply: Outcome<seq<Product>>)
    returns (params: Option<ProductSearchParams>)
    modifies v
    ensures v.FiltersCleared()
    ensures params.Some? <==> !old(v.FiltersCleared())
    ensures params.Some? ==>
      params.value == ProductSearchParams(None, None, None, None, None, Some("name"), Some(Asc))
    ensures params.Some? && reply.Resolved? ==>
      v.products == reply.value && v.genres == UniqueGenres(reply.value) && v.error.None?
    ensures params.Some? && reply.Rejected? ==>
      v.products == old(v.products) && v.genres == old(v.genres) && v.error == Some(FailedToLoad)
    ensures params.Some? ==> !v.loading
    ensures params.None? ==>
      v.products == old(v.products) && v.genres == old(v.genres)
      && v.loading == old(v.loading) && v.error == old(v.error)
  {
    var changes := !v.FiltersCleared();
    v.ClearFilters();
    if changes {
      var sent := v.LoadProducts(reply);
      params := Some(sent);
    } else {
      params := None;
    }
  }
}

=== FILE: profile_page.dfy ===
/**
 * The profile page (src/pages/ProfilePage.tsx): the form filled from the
 * cached user, the update request that maps empty fields to null, the
 * password-change checks, and the handlers around them.
 */
module ProfilePage {

  import opened Common
  import opened Text
  import opened Types
  import opened Browser
  import AuthService

  datatype ProfileForm = ProfileForm(email: string, firstName: string, lastName: string, phoneNumber: string)
  datatype PasswordForm = PasswordForm(oldPassword: string, newPassword: string, confirmPassword: string)

  const EmptyProfile: ProfileForm := ProfileForm("", "", "", "")
  const EmptyPasswords: PasswordForm := PasswordForm("", "", "")

  datatype ProfileField = Email | FirstName | LastName | PhoneNumber
  datatype PasswordField = OldPassword | NewPassword | ConfirmPassword

  function WithProfileField(form: ProfileForm, field: ProfileField, value: string): ProfileForm {
    match field
    case Email => form.(email := value)
    case FirstName => form.(firstName := value)
    case LastName => form.(lastName := value)
    case PhoneNumber => form.(phoneNumber := value)
  }

  function WithPasswordField(form: PasswordForm, field: PasswordField, value: string): PasswordForm {
    match field
    case OldPassword => form.(oldPassword := value)
    case NewPassword => form.(newPassword := value)
    case ConfirmPassword => form.(confirmPassword := value)
  }

  /** `loadProfile` fills the form with the user's fields, null as ''. */
  function FormFromUser(u: UserInfo): (f: ProfileForm)
    ensures f.email == NullToEmpty(u.email) && f.firstName == NullToEmpty(u.firstName)
    ensures f.lastName == NullToEmpty(u.lastName) && f.phoneNumber == NullToEmpty(u.phoneNumber)
  {
    ProfileForm(NullToEmpty(u.email), NullToEmpty(u.firstName), NullToEmpty(u.lastName), NullToEmpty(u.phoneNumber))
  }

  /** The body of `PUT /users/profile`: every empty field is sent as null. */
  function UpdateRequestOf(form: ProfileForm): (r: UpdateProfileRequest)
    ensures r.email == EmptyToNull(form.email) && r.firstName == EmptyToNull(form.firstName)
    ensures r.lastName == EmptyToNull(form.lastName) && r.phoneNumber == EmptyToNull(form.phoneNumber)
  {
    UpdateProfileRequest(EmptyToNull(form.email), EmptyToNull(form.firstName), EmptyToNull(form.lastName),
                         EmptyToNull(form.phoneNumber))
  }

  /** null and '' on the way in, null on the way out. */
  function Normalised(s: Option<string>): Option<string> {
    if Truthy(s) then s else None
  }

  /**
   * Saving an untouched form sends back what the cached user holds, with
   * '' turned into null; and no typed value is lost: each field reads back
   * from the request.
   */
  lemma UntouchedFormRoundTrip(u: UserInfo, form: ProfileForm)
    ensures UpdateRequestOf(FormFromUser(u)) ==
      UpdateProfileRequest(Normalised(u.email), Normalised(u.firstName), Normalised(u.lastName), Normalised(u.phoneNumber))
    ensures NullToEmpty(UpdateRequestOf(form).email) == form.email
    ensures NullToEmpty(UpdateRequestOf(form).firstName) == form.firstName
    ensures NullToEmpty(UpdateRequestOf(form).lastName) == form.lastName
    ensures NullToEmpty(UpdateRequestOf(form).phoneNumber) == form.phoneNumber
  {
    EmptyToNullAfterNullToEmpty(u.email);
    EmptyToNullAfterNullToEmpty(u.firstName);
    EmptyToNullAfterNullToEmpty(u.lastName);
    EmptyToNullAfterNullToEmpty(u.phoneNumber);
  }

  const PasswordsDiffer: string := "New passwords do not match"
  const PasswordTooShort: string := "Password must be at least 6 characters"
  const MinPasswordLength: nat := 6

  /**
   * The checks of `handleChangePassword`: the confirmation first, then the
   * length in UTF-16 code units. The current password is not checked here.
   */
  function PasswordError(p: PasswordForm): (r: Option<string>)
    ensures r == Some(PasswordsDiffer) <==> p.newPassword != p.confirmPassword
    ensures r == Some(PasswordTooShort) <==>
      p.newPassword == p.confirmPassword && Utf16Length(p.newPassword) < MinPasswordLength
    ensures r.None? <==> p.newPassword == p.confirmPassword && Utf16Length(p.newPassword) >= MinPasswordLength
  {
    if p.newPassword != p.confirmPassword then Some(PasswordsDiffer)
    else if Utf16Length(p.newPassword) < MinPasswordLength then Some(PasswordTooShort)
    else None
  }

  /** An empty current password does not stop the change: only the new password is checked. */
  lemma OldPasswordNotChecked(p: PasswordForm, other: string)
    ensures PasswordError(p.(oldPassword := other)) == PasswordError(p)
  {
  }

  const LoadFailed: string := "Failed to load profile"
  const UpdateSucceeded: string := "Profile updated successfully!"
  const UpdateFailed: string := "Failed to update profile"
  const ChangeSucceeded: string := "Password changed successfully!"
  const ChangeFailed: string := "Failed to change password. Check your current password."

  class ProfileView {
    var user: Option<UserInfo>
    var loading: bool
    var saving: bool
    var error: Option<string>
    var success: Option<string>
    var formData: ProfileForm
    var passwordData: PasswordForm
    /** The route `navigate` was last called with, if any. */
    var navigatedTo: Option<string>

    constructor ()
      ensures user.None? && loading && !saving && error.None? && success.None?
      ensures formData == EmptyProfile && passwordData == EmptyPasswords && navigatedTo.None?
    {
      user, loading, saving, error, success := None, true, false, None, None;
      formData, passwordData, navigatedTo := EmptyProfile, EmptyPasswords, None;
    }

    /**
     * The body of `loadProfile` once the cached user has been read: a user
     * fills the form, no user leaves the page as it was, and text that did
     * not parse shows the load error.
     */
    method ShowCachedUser(current: Outcome<Option<UserInfo>>)
      modifies this`loading, this`user, this`formData, this`error
      ensures !loading
      ensures current.Resolved? && current.value.Some? ==>
        user == current.value && formData == FormFromUser(current.value.value) && error == old(error)
      ensures current == Resolved(None) ==> user == old(user) && formData == old(formData) && error == old(error)
      ensures current.Rejected? ==> user == old(user) && formData == old(formData) && error == Some(LoadFailed)
    {
      loading := true;
      match current {
        case Resolved(found) =>
          if found.Some? {
            user := found;
            formData := FormFromUser(found.value);
          }
        case Rejected(_) =>
          error := Some(LoadFailed);
      }
      loading := false;
    }

    /** `loadProfile`: reads the cached user from the store and shows it. */
    method LoadProfile(w: Window) returns (current: Outcome<Option<UserInfo>>)
      modifies this`loading, this`user, this`formData, this`error
      ensures current == AuthService.CurrentUser(w.localStorage)
      ensures !loading
      ensures current.Resolved? && current.value.Some? ==>
        user == current.value && formData == FormFromUser(current.value.value) && error == old(error)
      ensures current == Resolved(None) ==> user == old(user) && formData == old(formData) && error == old(error)
      ensures current.Rejected? ==> user == old(user) && formData == old(formData) && error == Some(LoadFailed)
    {
      current := AuthService.CurrentUser(w.localStorage);
      ShowCachedUser(current);
    }

    /**
     * The mount effect: an anonymous visitor is sent to `/login` (None);
     * anyone else has the cached user read and shown (Some of the read).
     */
    method Mount(w: Window) returns (read: Option<Outcome<Option<UserInfo>>>)
      modifies this`loading, this`user, this`formData, this`error, this`navigatedTo
      ensures read.None? <==> !AuthService.IsAuthenticated(w.localStorage)
      ensures read.None? ==>
        navigatedTo == Some("/login") && user == old(user) && formData == old(formData)
        && loading == old(loading) && error == old(error)
      ensures read.Some? ==> read.value == AuthService.CurrentUser(w.localStorage)
      ensures read.Some? ==> navigatedTo == old(navigatedTo) && !loading
      ensures read.Some? && read.value.Resolved? && read.value.value.Some? ==>
        user == read.value.value && formData == FormFromUser(read.value.value.value) && error == old(error)
      ensures read == Some(Resolved(None)) ==> user == old(user) && formData == old(formData) && error == old(error)
      ensures read.Some? && read.value.Rejected? ==>
        user == old(user) && formData == old(formData) && error == Some(LoadFailed)
    {
      if !AuthService.IsAuthenticated(w.localStorage) {
        navigatedTo := Some("/login");
        return None;
      }
      var current := LoadProfile(w);
      read := Some(current);
    }

    /** `handleChange`: stores the value and clears both messages. */
    method HandleChange(field: ProfileField, value: string)
      modifies this`formData, this`error, this`success
      ensures formData == WithProfileField(old(formData), field, value)
      ensures error.None? && success.None?
    {
      formData := WithProfileField(formData, field, value);
      error := None;
      success := None;
    }

    /** `handlePasswordChange`: stores the value and clears both messages. */
    method HandlePasswordChange(field: PasswordField, value: string)
      modifies this`passwordData, this`error, this`success
      ensures passwordData == WithPasswordField(old(passwordData), field, value)
      ensures error.None? && success.None?
    {
      passwordData := WithPasswordField(passwordData, field, value);
      error := None;
      success := None;
    }

    /** `handleUpdateProfile`; `reply` is the outcome of `PUT /users/profile`. */
    method UpdateProfile(reply: Outcome<()>) returns (request: UpdateProfileRequest)
      modifies this`saving, this`error, this`success
      ensures request == UpdateRequestOf(old(formData))
      ensures reply.Resolved? ==> success == Some(UpdateSucceeded) && error.None?
      ensures reply.Rejected? ==> error == Some(UpdateFailed) && success == old(success)
      ensures !saving
    {
      saving := true;
      error := None;
      request := UpdateRequestOf(formData);
      if reply.Resolved? {
        success := Some(UpdateSucceeded);
      } else {
        error := Some(UpdateFailed);
      }
      saving := false;
    }

    /**
     * `handleChangePassword`. A failed check shows its message and makes no
     * call; otherwise both passwords are sent as typed, and after a success
     * the three fields are emptied.
     */
    method ChangePassword(reply: Outcome<()>) returns (request: Option<ChangePasswordRequest>)
      modifies this`saving, this`error, this`success, this`passwordData
      ensures request.Some? <==> PasswordError(old(passwordData)).None?
      ensures request.None? ==>
        error == PasswordError(old(passwordData)) && passwordData == old(passwordData)
        && success == old(success) && saving == old(saving)
      ensures request.Some? ==>
        request.value == ChangePasswordRequest(Some(old(passwordData).oldPassword), Some(old(passwordData).newPassword))
        && !saving
      ensures request.Some? && reply.Resolved? ==>
        success == Some(ChangeSucceeded) && passwordData == EmptyPasswords && error.None?
      ensures request.Some? && reply.Rejected? ==>
        error == Some(ChangeFailed) && passwordData == old(passwordData) && success == old(success)
    {
      var invalid := PasswordError(passwordData);
      if invalid.Some? {
        error := invalid;
        return None;
      }
      saving := true;
      error := None;
      request := Some(ChangePasswordRequest(Some(passwordData.oldPassword), Some(passwordData.newPassword)));
      if reply.Resolved? {
        success := Some(ChangeSucceeded);
        passwordData := EmptyPasswords;
      } else {
        error := Some(ChangeFailed);
      }
      saving := false;
    }
  }

  /** Right after a sign-in with a token, the profile page shows the signed-in user's fields. */
  method ProfileAfterSignIn(w: Window, view: ProfileView, response: LoginResponse)
    requires Truthy(response.token)
    modifies w, view
    ensures view.user == Some(response.user)
    ensures view.formData == FormFromUser(response.user)
  {
    var _ := AuthService.Login(w, Resolved(response));
    AuthService.LoginRoundTrip(old(w.localStorage), response);
    var read := view.Mount(w);
    assert read == Some(Resolved(Some(response.user)));
  }
}

=== FILE: register_page.dfy ===
/**
 * The registration form (src/pages/RegisterPage.tsx): its validation
 * chain, the request it sends, and its two handlers.
 */
module RegisterPage {

  import opened Common
  import opened Text
  import opened Types
  import opened Browser
  import AuthService

  datatype RegisterForm = RegisterForm(
    username: string,
    email: string,
    password: string,
    confirmPassword: string,
    firstName: string,
    lastName: string,
    phoneNumber: string)

  const EmptyForm: RegisterForm := RegisterForm("", "", "", "", "", "", "")

  /** The `name` attributes of the form's inputs. */
  datatype RegisterField = Username | Email | Password | ConfirmPassword | FirstName | LastName | PhoneNumber

  /** `{ ...formData, [name]: value }` */
  function WithField(form: RegisterForm, field: RegisterField, value: string): (f: RegisterForm) {
    match field
    case Username => form.(username := value)
    case Email => form.(email := value)
    case Password => form.(password := value)
    case ConfirmPassword => form.(confirmPassword := value)
    case FirstName => form.(firstName := value)
    case LastName => form.(lastName := value)
    case PhoneNumber => form.(phoneNumber := value)
  }

  const MissingFields: string := "Please fill in all required fields"
  const PasswordMismatch: string := "Passwords do not match"
  const PasswordTooShort: string := "Password must be at least 6 characters"
  const MinPasswordLength: nat := 6

  /**
   * The checks of `handleSubmit`, in order; the first that fails gives the
   * message. Length is JavaScript's `length`, in UTF-16 code units.
   */
  function ValidationError(form: RegisterForm): (r: Option<string>)
    ensures r == Some(MissingFields) <==> form.username == "" || form.email == "" || form.password == ""
    ensures r == Some(PasswordMismatch) <==>
      form.username != "" && form.email != "" && form.password != "" && form.password != form.confirmPassword
    ensures r == Some(PasswordTooShort) <==>
      form.username != "" && form.email != "" && form.password != "" && form.password == form.confirmPassword
      && Utf16Length(form.password) < MinPasswordLength
    ensures r.None? <==>
      form.username != "" && form.email != "" && form.password == form.confirmPassword
      && Utf16Length(form.password) >= MinPasswordLength
  {
    if form.username == "" || form.email == "" || form.password == "" then Some(MissingFields)
    else if form.password != form.confirmPassword then Some(PasswordMismatch)
    else if Utf16Length(form.password) < MinPasswordLength then Some(PasswordTooShort)
    else None
  }

  /** The body of `POST /Users/register`: required fields verbatim, empty optional fields as null. */
  function RequestOf(form: RegisterForm): (r: RegisterRequest)
    ensures r.username == Some(form.username) && r.email == Some(form.email) && r.password == Some(form.password)
    ensures r.firstName == EmptyToNull(form.firstName) && r.lastName == EmptyToNull(form.lastName)
    ensures r.phoneNumber == EmptyToNull(form.phoneNumber)
  {
    RegisterRequest(Some(form.username), Some(form.password), Some(form.email),
                    EmptyToNull(form.firstName), EmptyToNull(form.lastName), EmptyToNull(form.phoneNumber))
  }

  /**
   * A request that passed validation carries a non-empty username, email
   * and password of at least six code units, and every field of the form
   * can be read back from it.
   */
  lemma ValidRequestFields(form: RegisterForm)
    requires ValidationError(form).None?
    ensures Truthy(RequestOf(form).username) && Truthy(RequestOf(form).email) && Truthy(RequestOf(form).password)
    ensures Utf16Length(RequestOf(form).password.value) >= 6
    ensures NullToEmpty(RequestOf(form).firstName) == form.firstName
    ensures NullToEmpty(RequestOf(form).lastName) == form.lastName
    ensures NullToEmpty(RequestOf(form).phoneNumber) == form.phoneNumber
  {
  }

  const RegisterFallback: string := "Registration failed. Please try again."

  class RegisterView {
    var formData: RegisterForm
    var loading: bool
    var error: Option<string>
    /** The route `navigate` was last called with, if any. */
    var navigatedTo: Option<string>

    constructor ()
      ensures formData == EmptyForm && !loading && error.None? && navigatedTo.None?
    {
      formData, loading, error, navigatedTo := EmptyForm, false, None, None;
    }

    /** `handleChange`: stores the value and clears the error. */
    method HandleChange(field: RegisterField, value: string)
      modifies this
      ensures formData == WithField(old(formData), field, value)
      ensures error.None?
      ensures loading == old(loading) && navigatedTo == old(navigatedTo)
    {
      formData := WithField(formData, field, value);
      error := None;
    }

    /**
     * `handleSubmit`. `reply` is the outcome of `authService.register`; it
     * is consulted only when the form is valid.
     */
    method HandleSubmit(w: Window, reply: Outcome<RegisterResponse>) returns (request: Option<RegisterRequest>)
      modifies this
      ensures request.Some? <==> ValidationError(old(formData)).None?
      ensures request.None? ==>
        error == ValidationError(old(formData)) && navigatedTo == old(navigatedTo) && loading == old(loading)
      ensures request.Some? ==> request.value == RequestOf(old(formData)) && !loading
      ensures request.Some? && reply.Resolved? ==> navigatedTo == Some("/login") && error.None?
      ensures request.Some? && reply.Rejected? ==>
        navigatedTo == old(navigatedTo) && error == Some(MessageOr(reply.error, RegisterFallback))
      ensures formData == old(formData)
    {
      var invalid := ValidationError(formData);
      if invalid.Some? {
        error := invalid;
        return None;
      }
      loading := true;
      error := None;
      request := Some(RequestOf(formData));
      var r := AuthService.Register(w, reply);
      match r {
        case Resolved(_) =>
          navigatedTo := Some("/login");
        case Rejected(e) =>
          error := Some(MessageOr(e, RegisterFallback));
      }
      loading := false;
    }
  }
}

=== FILE: text.dfy ===
/**
 * The JavaScript string operations the storefront relies on, written out:
 * `startsWith`, `trim`, `replace(/\D/g, '')`, `slice(0, n)`, `padStart` and
 * `String(n)` for integers.
 */
module Text {

  import opened Common

  /** `s.startsWith(p)`: case-sensitive, position 0. */
  predicate StartsWith(s: string, p: string) {
    |p| <= |s| && s[..|p|] == p
  }

  // ---------------------------------------------------------------------
  // Digits: `/\D/` matches every character that is not an ASCII digit.

  predicate IsDigit(c: char) {
    '0' <= c <= '9'
  }

  predicate AllDigits(s: string) {
    forall i :: 0 <= i < |s| ==> IsDigit(s[i])
  }

  /** `s.replace(/\D/g, '')`: the digits of `s`, in order. */
  function KeepDigits(s: string): (r: string)
    ensures AllDigits(r)
    ensures |r| <= |s|
  {
    if s == [] then []
    else (if IsDigit(s[0]) then [s[0]] else []) + KeepDigits(s[1..])
  }

  /** Removing non-digits distributes over concatenation. */
  lemma {:induction false} KeepDigitsAppend(a: string, b: string)
    ensures KeepDigits(a + b) == KeepDigits(a) + KeepDigits(b)
  {
    if a == [] {
      assert a + b == b;
    } else {
      var h := if IsDigit(a[0]) then [a[0]] else [];
      assert (a + b)[0] == a[0] && (a + b)[1..] == a[1..] + b;
      assert KeepDigits(a + b) == h + KeepDigits(a[1..] + b);
      KeepDigitsAppend(a[1..], b);
      assert KeepDigits(a) == h + KeepDigits(a[1..]);
    }
  }

  /** A string made only of digits passes through unchanged. */
  lemma {:induction false} KeepDigitsOfDigits(s: string)
    requires AllDigits(s)
    ensures KeepDigits(s) == s
  {
    if s != [] {
      KeepDigitsOfDigits(s[1..]);
    }
  }

  /** Every character outside 0-9 is removed: a string without digits yields ''. */
  lemma {:induction false} KeepDigitsOfNonDigits(s: string)
    requires forall i :: 0 <= i < |s| ==> !IsDigit(s[i])
    ensures KeepDigits(s) == ""
  {
    if s != [] {
      KeepDigitsOfNonDigits(s[1..]);
    }
  }

  /** `s.slice(0, n)` for n >= 0. */
  function Take(s: string, n: nat): (r: string)
    ensures |r| == if |s| <= n then |s| else n
    ensures r <= s
  {
    if |s| <= n then s else s[..n]
  }

  // ---------------------------------------------------------------------
  // trim(): strips WhiteSpace and LineTerminator code points at both ends.

  /** The characters ECMAScript's `trim` removes (WhiteSpace and LineTerminator). */
  predicate IsJsSpace(c: char) {
    c == '\t' || c == '\n' || c == '\U{000B}' || c == '\U{000C}' || c == '\r' || c == ' '
    || c == '\U{00A0}' || c == '\U{1680}' || ('\U{2000}' <= c <= '\U{200A}')
    || c == '\U{2028}' || c == '\U{2029}' || c == '\U{202F}' || c == '\U{205F}'
    || c == '\U{3000}' || c == '\U{FEFF}'
  }

  predicate AllSpace(s: string) {
    forall i :: 0 <= i < |s| ==> IsJsSpace(s[i])
  }

  /** Every character of `s[from..to]` is white space. */
  predicate SpaceBetween(s: string, from: int, to: int)
    requires 0 <= from <= to <= |s|
  {
    forall k {:trigger IsJsSpace(s[k])} :: from <= k < to ==> IsJsSpace(s[k])
  }

  /** `r` is `s` with some white space removed at either end, and nothing else. */
  predicate CutFrom(r: string, s: string) {
    exists i, j :: 0 <= i <= j <= |s| && r == s[i..j] && SpaceBetween(s, 0, i) && SpaceBetween(s, j, |s|)
  }

  /** Drops the leading white space: what is removed is all white space, what is kept starts with none. */
  function TrimStart(s: string): (r: string)
    ensures r == [] || !IsJsSpace(r[0])
    ensures |r| <= |s| && r == s[|s| - |r|..]
    ensures SpaceBetween(s, 0, |s| - |r|)
  {
    if s != [] && IsJsSpace(s[0]) then TrimStart(s[1..]) else s
  }

  /** Drops the trailing white space: what is removed is all white space, what is kept ends with none. */
  function TrimEnd(s: string): (r: string)
    ensures r == [] || !IsJsSpace(r[|r| - 1])
    ensures r <= s
    ensures SpaceBetween(s, |r|, |s|)
  {
    if s != [] && IsJsSpace(s[|s| - 1]) then TrimEnd(s[..|s| - 1]) else s
  }

  /**
   * `s.trim()`: the longest infix of `s` that neither starts nor ends with
   * white space, found by removing white space only.
   */
  function Trim(s: string): (r: string)
    ensures r == [] || (!IsJsSpace(r[0]) && !IsJsSpace(r[|r| - 1]))
    ensures CutFrom(r, s)
  {
    TrimBounds(s);
    TrimEnd(TrimStart(s))
  }

  /** A prefix `r` of the suffix `s[i..]` is the infix `s[i..i + |r|]`. */
  lemma PrefixOfSuffix(s: string, i: nat, r: string)
    requires i <= |s| && r <= s[i..]
    ensures i + |r| <= |s| && r == s[i..i + |r|]
  {
  }

  /** White space at the end of the suffix `s[i..]` is white space at the end of `s`. */
  lemma SpaceAtEndOfSuffix(s: string, i: nat, from: nat)
    requires i <= |s| && from <= |s| - i && SpaceBetween(s[i..], from, |s| - i)
    ensures SpaceBetween(s, i + from, |s|)
  {
    forall k | i + from <= k < |s|
      ensures IsJsSpace(s[k])
    {
      assert s[k] == s[i..][k - i];
      assert IsJsSpace(s[i..][k - i]);
    }
  }

  /** Where the kept infix of `s` starts and ends: only white space lies outside it. */
  lemma TrimCuts(s: string) returns (i: nat, j: nat)
    ensures i <= j <= |s| && TrimEnd(TrimStart(s)) == s[i..j]
    ensures SpaceBetween(s, 0, i) && SpaceBetween(s, j, |s|)
  {
    var t := TrimStart(s);
    var r := TrimEnd(t);
    i := |s| - |t|;
    PrefixOfSuffix(s, i, r);
    SpaceAtEndOfSuffix(s, i, |r|);
    j := i + |r|;
  }

  lemma TrimBounds(s: string)
    ensures CutFrom(TrimEnd(TrimStart(s)), s)
  {
    var i, j := TrimCuts(s);
  }

  lemma {:induction false} TrimStartEmpty(s: string)
    ensures TrimStart(s) == [] <==> AllSpace(s)
  {
    if s != [] {
      TrimStartEmpty(s[1..]);
      if IsJsSpace(s[0]) {
        assert AllSpace(s) <==> AllSpace(s[1..]) by {
          if AllSpace(s[1..]) {
            forall i | 0 <= i < |s| ensures IsJsSpace(s[i]) {
              if i > 0 { assert s[i] == s[1..][i - 1]; }
            }
          }
        }
      }
    }
  }

  lemma {:induction false} TrimEndEmptyOnlyIfEmpty(s: string)
    requires s != [] && !IsJsSpace(s[0])
    ensures TrimEnd(s) != []
  {
    if IsJsSpace(s[|s| - 1]) {
      TrimEndEmptyOnlyIfEmpty(s[..|s| - 1]);
    }
  }

  /** A value is blank after trimming exactly when it consists of white space only. */
  lemma TrimEmptyIffAllSpace(s: string)
    ensures Trim(s) == [] <==> AllSpace(s)
  {
    TrimStartEmpty(s);
    if TrimStart(s) != [] {
      TrimEndEmptyOnlyIfEmpty(TrimStart(s));
    }
  }

  // ---------------------------------------------------------------------
  // Decimal rendering of integers: `String(n)` and template `${n}`.

  function DigitChar(d: nat): (c: char)
    requires d < 10
    ensures IsDigit(c)
  {
    ('0' as int + d) as char
  }

  function DigitValue(c: char): (d: nat)
    requires IsDigit(c)
    ensures d < 10 && DigitChar(d) == c
  {
    c as int - '0' as int
  }

  /** `String(n)` for a non-negative integer: no leading zeros, at least one digit. */
  function NatToString(n: nat): (r: string)
    ensures |r| >= 1 && AllDigits(r)
    ensures |r| > 1 ==> r[0] != '0'
    ensures n < 10 <==> |r| == 1
  {
    if n < 10 then [DigitChar(n)] else NatToString(n / 10) + [DigitChar(n % 10)]
  }

  /** `String(i)` for any integer. */
  function IntToString(i: int): (r: string)
    ensures |r| >= 1
    ensures i >= 0 <==> r[0] != '-'
  {
    if i < 0 then "-" + NatToString(-i) else NatToString(i)
  }

  /** The value of a run of decimal digits, most significant first. */
  function DigitsValue(s: string): nat
    requires AllDigits(s)
  {
    if s == [] then 0 else DigitsValue(s[..|s| - 1]) * 10 + DigitValue(s[|s| - 1])
  }

  lemma {:induction false} NatToStringValue(n: nat)
    ensures DigitsValue(NatToString(n)) == n
  {
    var r := NatToString(n);
    if n >= 10 {
      NatToStringValue(n / 10);
      assert r[..|r| - 1] == NatToString(n / 10);
    }
  }

  /** `Number(s)` on a decimal integer without spaces; None when `s` is not one. */
  function ParseInt(s: string): (r: Option<int>)
  {
    if s != [] && s[0] == '-' then
      (if |s| > 1 && AllDigits(s[1..]) then Some(-(DigitsValue(s[1..]) as int)) else None)
    else if s != [] && AllDigits(s) then Some(DigitsValue(s))
    else None
  }

  /** Reading back what `String(i)` wrote gives `i`. */
  lemma IntToStringRoundTrip(i: int)
    ensures ParseInt(IntToString(i)) == Some(i)
  {
    if i < 0 {
      var d := NatToString(-i);
      var s := "-" + d;
      assert s[0] == '-' && s[1..] == d;
      NatToStringValue(-i);
      assert ParseInt(s) == Some(-(DigitsValue(d) as int));
    } else {
      var s := NatToString(i);
      assert IsDigit(s[0]);
      NatToStringValue(i);
      assert ParseInt(s) == Some(DigitsValue(s));
    }
  }

  /** Distinct integers render as distinct strings. */
  lemma IntToStringInjective(i: int, j: int)
    ensures IntToString(i) == IntToString(j) ==> i == j
  {
    IntToStringRoundTrip(i);
    IntToStringRoundTrip(j);
  }

  /** `String(n).padStart(2, '0')` for a non-negative n. */
  function PadTwo(n: nat): (r: string)
    ensures |r| >= 2 && AllDigits(r)
    ensures n < 100 ==> |r| == 2 && DigitsValue(r) == n
  {
    var s := NatToString(n);
    if |s| < 2 then
      assert DigitsValue(s) == n by { NatToStringValue(n); }
      assert DigitsValue(['0']) == 0;
      assert (['0'] + s)[..1] == ['0'];
      ['0'] + s
    else
      assert n < 100 ==> DigitsValue(s) == n by { NatToStringValue(n); }
      s
  }
  // ---------------------------------------------------------------------
  // `String.prototype.length`: UTF-16 code units.

  /** `s.length`: characters outside the Basic Multilingual Plane take two code units. */
  function Utf16Length(s: string): (n: nat)
    ensures n >= |s|
    ensures n <= 2 * |s|
  {
    if s == [] then 0 else (if s[0] as int >= 0x10000 then 2 else 1) + Utf16Length(s[1..])
  }

  /** On text within the Basic Multilingual Plane the two lengths agree. */
  lemma {:induction false} Utf16LengthOfBmp(s: string)
    requires forall i :: 0 <= i < |s| ==> (s[i] as int) < 0x10000
    ensures Utf16Length(s) == |s|
  {
    if s != [] {
      assert forall i :: 0 <= i < |s[1..]| ==> s[1..][i] == s[i + 1];
      Utf16LengthOfBmp(s[1..]);
    }
  }

  /** A character outside the Basic Multilingual Plane is two code units, any other one. */
  lemma Utf16LengthOfChar(c: char)
    ensures Utf16Length([c]) == if c as int >= 0x10000 then 2 else 1
  {
    assert [c][1..] == [];
  }

  /** The code units of a concatenation are those of its parts. */
  lemma {:induction false} Utf16LengthAppend(a: string, b: string)
    ensures Utf16Length(a + b) == Utf16Length(a) + Utf16Length(b)
  {
    if a == [] {
      assert a + b == b;
    } else {
      assert (a + b)[1..] == a[1..] + b;
      Utf16LengthAppend(a[1..], b);
    }
  }
}

=== FILE: types.dfy ===
/**
 * The transport records the storefront exchanges with its backend
 * (src/types/index.ts). Numbers the source treats as integers (ids,
 * quantities, enum values) are `int`; prices and amounts are `real`.
 */
module Types {

  import opened Common

  datatype Product = Product(
    id: int,
    name: Option<string>,
    author: Option<string>,
    genre: Option<string>,
    isbn: Option<string>,
    price: real,
    description: Option<string>,
    kind: Option<string>,            // the `type` field
    stockQuantity: int,
    lowStockThreshold: int,
    stockStatus: Option<string>,
    averageRating: real,
    reviewCount: int)

  datatype CartItem = CartItem(
    id: int,
    productId: int,
    productName: Option<string>,
    author: Option<string>,
    unitPrice: real,
    quantity: int,
    totalPrice: real)

  datatype Cart = Cart(
    id: int,
    userId: int,
    items: Option<seq<CartItem>>,
    appliedCouponCode: Option<string>,
    subtotal: real,
    discountAmount: real,
    totalPrice: real,
    totalItems: int,
    lastUpdated: string)

  datatype AddToCartRequest = AddToCartRequest(productId: int, quantity: int)

  /** `OrderStatus` is a numeric enum; at run time `status` is whatever number the backend sent. */
  const Pending: int := 0
  const Processing: int := 1
  const Shipped: int := 2
  const Delivered: int := 3
  const Cancelled: int := 4

  datatype OrderItem = OrderItem(
    id: int,
    productId: int,
    productName: Option<string>,
    quantity: int,
    unitPrice: real,
    totalPrice: real)

  datatype Order = Order(
    id: int,
    userId: int,
    items: Option<seq<OrderItem>>,
    totalPrice: real,
    orderDate: string,
    status: int,
    paymentStatus: int,
    transactionId: Option<string>,
    paymentMethodId: Option<int>,
    shippingAddressId: Option<int>,
    expiresAt: Option<string>)

  datatype UserInfo = UserInfo(
    id: int,
    username: Option<string>,
    email: Option<string>,
    firstName: Option<string>,
    lastName: Option<string>,
    phoneNumber: Option<string>,
    role: Option<string>,
    createdAt: string)

  datatype RegisterRequest = RegisterRequest(
    username: Option<string>,
    password: Option<string>,
    email: Option<string>,
    firstName: Option<string>,
    lastName: Option<string>,
    phoneNumber: Option<string>)

  datatype RegisterResponse = RegisterResponse(message: Option<string>, user: UserInfo)

  datatype LoginRequest = LoginRequest(username: Option<string>, password: Option<string>)

  datatype LoginResponse = LoginResponse(message: Option<string>, token: Option<string>, user: UserInfo)

  datatype UpdateProfileRequest = UpdateProfileRequest(
    email: Option<string>,
    firstName: Option<string>,
    lastName: Option<string>,
    phoneNumber: Option<string>)

  datatype ChangePasswordRequest = ChangePasswordRequest(oldPassword: Option<string>, newPassword: Option<string>)

  datatype Review = Review(
    id: int,
    productId: int,
    userId: int,
    userName: Option<string>,
    rating: int,
    reviewText: Option<string>,
    isVerifiedPurchase: bool,
    helpfulCount: int,
    isHidden: bool,
    createdAt: string,
    updatedAt: string)

  datatype CreateReviewRequest = CreateReviewRequest(rating: int, reviewText: Option<string>)
}
